=== FILE: README.md ===
# OpenKit (Java) server-configuration path, modelled in Dafny

This project models how the OpenKit Java client takes its settings from the
Dynatrace or AppMon server, together with one small string helper:

- **`ResponseImpl` and its `Builder`** (`responses.dfy`, module `Responses`).
  A response holds twelve tuning values. An attribute set records which of
  them the server actually sent. `merge` overlays one response on another
  through a builder that starts as a copy of the receiver. The record and
  `Merge` are pure. The builder is a class whose `WithX` setters update its
  fields in place. `MergeThroughBuilder` replays the source's twelve `applyX`
  steps on that class and is proved equal to the pure `Merge`.
- **The legacy key-value `StatusResponse`** (`status_responses.dfy`, module
  `StatusResponses`). A body such as `type=m&si=120&bn=dynaTraceMonitor&id=1`
  is split into key/value pairs and decoded into a response record, or into
  an `IllegalArgument` or `NumberFormat` error. The decoding covers the Java
  `int` parse, the seconds→milliseconds and kilobytes→bytes conversions with
  Java's 32-bit wrap-around, the "non-zero" and "equals 1" boolean rules, the
  defaults, and the `Retry-After` header rule. `StatusResponse`'s own code
  is not modelled; its behaviour is fixed by `StatusResponseTest`, whose
  assertions are stated here as lemmas.
- **`Configuration`** (`configurations.dfy`, module `Configurations`). This
  is a class with the user-supplied settings and the server-controlled
  settings:
  - capture flag, send interval, monitor name, server id, beacon size;
  - the current HTTP client;
  - the session counter.

  `UpdateSettings` is the in-place transition of `updateSettings`. It is
  proved against the pure `UpdatedSettings`. The class invariant `Valid`
  says three things:
  - once `Initialize` has built a client, the HTTP client always addresses the current monitor name and server id;
  - the session counter equals the number of calls so far, wrapped to `int`;
  - the send interval and beacon size never hold the "unspecified" value -1.

  The beacon sender and the HTTP client provider are represented by ghost
  logs: sessions handed over, sessions cleared, clients built, shutdown
  requests.
- **`WebRequestTagStringURL`** (`web_request_tags.dfy`, module
  `WebRequestTags`). The constructor keeps the part of the URL before its
  query string, via `url.split("\\?")[0]`.

Supporting modules:
- `Wrappers`: `Option` and `Result`.
- `JavaInts`: Java `int`/`long` ranges, `Wrap32`, and a model of
  `Integer.parseInt` with its decimal round trip.
- `Strings`: `split` on one character, `join`, Java's `split` with its
  trailing-empty-string removal, and the prefix before a separator.

Protocol constants are parameters, not fixed strings. The status-response
keys, the `Retry-After` header name and the default retry delay are fields
of `StatusResponses.ProtocolConstants`. The lemmas assume only what the
protocol needs: the eight body keys are pairwise distinct and contain no
`&` or `=`. The type defaults of `OpenKitType` (monitor name, server id) are
likewise fields of `Configurations.OpenKitType`.

Two points where the model departs from a natural reading:

- **Key-value tokenisation.** The status-response implementation is not
  part of this model, so the tokenisation follows the tests and the
  protocol's rule of two tokens per pair:
  - an empty or missing body gives no pairs;
  - otherwise the body is split on every `&`, keeping empty pieces;
  - each piece must hold exactly one `=`, so that splitting on `&` and `=`
    gives two tokens per pair; the key is before it and the value after it;
  - a piece without `=`, or with more than one (`bn=a=b`), rejects the whole
    body with "Invalid response; even number of tokens expected.";
  - `key=` gives the empty value, which makes an integer key throw
    `NumberFormat` and gives the monitor name `""`.
- **The capture switch checks for exactly 200.** `updateSettings` switches
  capture off for any code other than 200, not only for codes from 400 up,
  although `isErroneousResponse` uses 400. The model follows that code:
  a 204 or a 302 also switches capture off (`CaptureOnlyOn200`).

## Model

| member | source | states |
|---|---|---|
| Responses.Response.IsAttributeSet | src/main/java/com/dynatrace/openkit/protocol/ResponseImpl.java:127-129 | an attribute is set iff it is in the record's attribute set (no contract; used by the `Merge` and apply-step contracts) |
| Responses.Response.Merge | src/main/java/com/dynatrace/openkit/protocol/ResponseImpl.java:131-149 | the merged record's attribute set is the union of both attribute sets |
| Responses.MergeSemantics | src/main/java/com/dynatrace/openkit/protocol/ResponseImpl.java:151-233 | per attribute: set in the merge iff set in either record; takes the argument's value where the argument sets it, else keeps the receiver's |
| Responses.MergeUnsetIsIdentity | src/main/java/com/dynatrace/openkit/protocol/ResponseImpl.java:131-149 | merging a response with no attribute set returns the receiver unchanged |
| Responses.MergeIntoUnset | src/main/java/com/dynatrace/openkit/protocol/ResponseImpl.java:131-149 | merging into a receiver with nothing set yields the argument's flags and, on every set field, its values |
| Responses.MergeIdempotent | src/main/java/com/dynatrace/openkit/protocol/ResponseImpl.java:131-149 | `r.merge(r)` equals `r` |
| Responses.MergeAssociative | src/main/java/com/dynatrace/openkit/protocol/ResponseImpl.java:131-149 | `a.merge(b).merge(c)` equals `a.merge(b.merge(c))` |
| Responses.Extensionality | src/main/java/com/dynatrace/openkit/protocol/ResponseImpl.java:28-44 | two responses that agree on every flag and every value are equal |
| Responses.AllAttributesListed | src/main/java/com/dynatrace/openkit/protocol/ResponseImpl.java:292-296 | the attribute list walked by the copy constructor contains every attribute |
| Responses.Builder.constructor | src/main/java/com/dynatrace/openkit/protocol/ResponseImpl.java:275-297 | the copy constructor's loop over all attributes reproduces every value and every flag of `defaults`, so building immediately gives `defaults` back |
| Responses.Builder.Build | src/main/java/com/dynatrace/openkit/protocol/ResponseImpl.java:127-129 | an attribute is set in the built response iff it is in the builder's set |
| Responses.Builder.SetAttribute | src/main/java/com/dynatrace/openkit/protocol/ResponseImpl.java:462-464 | adds exactly the given attribute to the set |
| Responses.Builder.WithMaxBeaconSizeInBytes | src/main/java/com/dynatrace/openkit/protocol/ResponseImpl.java:305-310 | the built response changes only in this field, and gains only this attribute |
| Responses.Builder.WithMaxSessionDurationInMilliseconds | src/main/java/com/dynatrace/openkit/protocol/ResponseImpl.java:318-323 | changes only this field, adds only this attribute |
| Responses.Builder.WithMaxEventsPerSession | src/main/java/com/dynatrace/openkit/protocol/ResponseImpl.java:331-336 | changes only this field, adds only this attribute |
| Responses.Builder.WithSessionTimeoutInMilliseconds | src/main/java/com/dynatrace/openkit/protocol/ResponseImpl.java:344-349 | changes only this field, adds only this attribute |
| Responses.Builder.WithSendIntervalInMilliseconds | src/main/java/com/dynatrace/openkit/protocol/ResponseImpl.java:357-362 | changes only this field, adds only this attribute |
| Responses.Builder.WithVisitStoreVersion | src/main/java/com/dynatrace/openkit/protocol/ResponseImpl.java:370-375 | changes only this field, adds only this attribute |
| Responses.Builder.WithCapture | src/main/java/com/dynatrace/openkit/protocol/ResponseImpl.java:383-388 | changes only this field, adds only this attribute |
| Responses.Builder.WithCaptureCrashes | src/main/java/com/dynatrace/openkit/protocol/ResponseImpl.java:396-401 | changes only this field, adds only this attribute |
| Responses.Builder.WithCaptureErrors | src/main/java/com/dynatrace/openkit/protocol/ResponseImpl.java:409-414 | changes only this field, adds only this attribute |
| Responses.Builder.WithMultiplicity | src/main/java/com/dynatrace/openkit/protocol/ResponseImpl.java:422-427 | changes only this field, adds only this attribute |
| Responses.Builder.WithServerId | src/main/java/com/dynatrace/openkit/protocol/ResponseImpl.java:435-440 | changes only this field, adds only this attribute |
| Responses.Builder.WithTimestampInMilliseconds | src/main/java/com/dynatrace/openkit/protocol/ResponseImpl.java:448-453 | changes only this field, adds only this attribute |
| Responses.ApplyBeaconSize | src/main/java/com/dynatrace/openkit/protocol/ResponseImpl.java:151-156 | the builder takes the argument's value and flag only if the argument sets the attribute; otherwise nothing changes |
| Responses.ApplySessionDuration | src/main/java/com/dynatrace/openkit/protocol/ResponseImpl.java:158-163 | as `ApplyBeaconSize`, for the session duration |
| Responses.ApplyEventsPerSession | src/main/java/com/dynatrace/openkit/protocol/ResponseImpl.java:165-170 | as `ApplyBeaconSize`, for events per session |
| Responses.ApplySessionTimeout | src/main/java/com/dynatrace/openkit/protocol/ResponseImpl.java:172-177 | as `ApplyBeaconSize`, for the session timeout |
| Responses.ApplySendInterval | src/main/java/com/dynatrace/openkit/protocol/ResponseImpl.java:179-184 | as `ApplyBeaconSize`, for the send interval |
| Responses.ApplyVisitStoreVersion | src/main/java/com/dynatrace/openkit/protocol/ResponseImpl.java:186-191 | as `ApplyBeaconSize`, for the visit store version |
| Responses.ApplyCapture | src/main/java/com/dynatrace/openkit/protocol/ResponseImpl.java:193-198 | as `ApplyBeaconSize`, for capture |
| Responses.ApplyCaptureCrashes | src/main/java/com/dynatrace/openkit/protocol/ResponseImpl.java:200-205 | as `ApplyBeaconSize`, for crash capture |
| Responses.ApplyCaptureErrors | src/main/java/com/dynatrace/openkit/protocol/ResponseImpl.java:207-212 | as `ApplyBeaconSize`, for error capture |
| Responses.ApplyMultiplicity | src/main/java/com/dynatrace/openkit/protocol/ResponseImpl.java:214-219 | as `ApplyBeaconSize`, for the multiplicity |
| Responses.ApplyServerId | src/main/java/com/dynatrace/openkit/protocol/ResponseImpl.java:221-226 | as `ApplyBeaconSize`, for the server id |
| Responses.ApplyTimestamp | src/main/java/com/dynatrace/openkit/protocol/ResponseImpl.java:228-233 | as `ApplyBeaconSize`, for the timestamp |
| Responses.ApplyLimits | src/main/java/com/dynatrace/openkit/protocol/ResponseImpl.java:135-140 | the first six apply steps together overlay exactly the six limit attributes the argument sets |
| Responses.ApplyFlags | src/main/java/com/dynatrace/openkit/protocol/ResponseImpl.java:141-146 | the last six apply steps together overlay exactly the six flag and id attributes the argument sets |
| Responses.MergeThroughBuilder | src/main/java/com/dynatrace/openkit/protocol/ResponseImpl.java:131-149 | copying the receiver into a builder and running the twelve apply steps builds exactly `receiver.Merge(response)` |
| StatusResponses.ParseResponseKeyValuePair | src/test/java/com/dynatrace/openkit/protocol/StatusResponseTest.java:148-193 | `""` gives no pairs; fails, with the "even number of tokens" message, iff some `&`-piece does not hold exactly one `=`; on success the pairs render back to the body and each key is free of `&` and `=` |
| StatusResponses.ParseRenderRoundTrip | src/test/java/com/dynatrace/openkit/protocol/StatusResponseTest.java:158-183 | rendering writable pairs as `k=v&k=v` and parsing them gives back exactly those pairs |
| StatusResponses.SampleBodyPairs | src/test/java/com/dynatrace/openkit/test/appmon/local/AbstractLocalAppMonTest.java:24 | the sample AppMon body splits into its four pairs `type=m`, `si=120`, `bn=dynaTraceMonitor`, `id=1` |
| StatusResponses.SampleBodyDecodes | src/test/java/com/dynatrace/openkit/test/appmon/local/AbstractLocalAppMonTest.java:24 | with `si`, `bn` and `id` as the send-interval, monitor-name and server-id keys, parsing the sample body with code 200 gives the defaults with send interval 120000 ms, monitor name `dynaTraceMonitor` and server id 1 |
| StatusResponses.BodyWithoutEqualsRejected | src/test/java/com/dynatrace/openkit/protocol/StatusResponseTest.java:184-193 | a non-empty body without any `=` (`key_value`, `cp&100`) is rejected with IllegalArgument |
| StatusResponses.ExtraEqualsRejected | src/test/java/com/dynatrace/openkit/protocol/StatusResponseTest.java:184-193 | a pair whose value holds a further `=` (`bn=a=b`) splits into more than two tokens and is rejected with IllegalArgument, like the malformed bodies of these tests |
| StatusResponses.PairSegmentIsTwoTokens | src/test/java/com/dynatrace/openkit/protocol/StatusResponseTest.java:148-193 | a piece is accepted as a pair exactly when splitting it on `=` gives two tokens |
| StatusResponses.TrailingBareKeyRejected | src/test/java/com/dynatrace/openkit/protocol/StatusResponseTest.java:273-295 | well-formed pairs followed by `&` and a bare key are rejected with IllegalArgument |
| StatusResponses.ParseStatusResponse | src/test/java/com/dynatrace/openkit/protocol/StatusResponseTest.java:75-91 | a successfully parsed response keeps the given response code and headers |
| StatusResponses.Defaults | src/test/java/com/dynatrace/openkit/protocol/StatusResponseTest.java:195-271 | the response before any key is read (no contract; its values are stated by `EmptyBodyGivesDefaults`) |
| StatusResponses.StatusResponse.IsErroneousResponse | src/test/java/com/dynatrace/openkit/protocol/StatusResponseTest.java:54-79 | erroneous iff the code is at least 400 (no contract; stated by `ErroneousFromCode400`) |
| StatusResponses.DecodePair | src/test/java/com/dynatrace/openkit/protocol/StatusResponseTest.java:297-624 | decoding one pair keeps code and headers; it fails only on an integer key whose value `Integer.parseInt` rejects, with NumberFormat of that value; a key that is not a protocol key leaves the response unchanged |
| StatusResponses.DecodePairs | src/test/java/com/dynatrace/openkit/protocol/StatusResponseTest.java:273-295 | folding the pairs keeps code and headers; a failure is NumberFormat of some pair with an integer key and an unparsable value; pairs with only unknown keys leave the response unchanged |
| StatusResponses.EmptyBodyGivesDefaults | src/test/java/com/dynatrace/openkit/protocol/StatusResponseTest.java:195-271 | a null or empty body does not fail; capture, crash and error capture are on; send interval, server id and beacon size are -1; monitor name is null; multiplicity is 1 |
| StatusResponses.ErroneousFromCode400 | src/test/java/com/dynatrace/openkit/protocol/StatusResponseTest.java:54-79 | the response code is kept, and the response is erroneous iff the code is at least 400 |
| StatusResponses.SinglePairBody | src/test/java/com/dynatrace/openkit/protocol/StatusResponseTest.java:158-169 | a one-pair body has exactly the effect of decoding that pair on the defaults |
| StatusResponses.IntegerPairBody | src/test/java/com/dynatrace/openkit/protocol/StatusResponseTest.java:339-346 | for every integer key, a decimal numeral in the `int` range is decoded and one outside it throws NumberFormat |
| StatusResponses.CaptureOnlyForOne | src/test/java/com/dynatrace/openkit/protocol/StatusResponseTest.java:297-319 | capture becomes `n == 1`; every other field keeps its default |
| StatusResponses.SendIntervalInMilliseconds | src/test/java/com/dynatrace/openkit/protocol/StatusResponseTest.java:348-376 | the send interval becomes `n * 1000`, wrapped to a Java `int`; nothing else changes |
| StatusResponses.MaxBeaconSizeInBytes | src/test/java/com/dynatrace/openkit/protocol/StatusResponseTest.java:452-480 | the beacon size becomes `n * 1024`, wrapped to a Java `int`; nothing else changes |
| StatusResponses.ServerIdVerbatim | src/test/java/com/dynatrace/openkit/protocol/StatusResponseTest.java:416-423 | the server id is taken as sent, including 0 and negatives |
| StatusResponses.MultiplicityVerbatim | src/test/java/com/dynatrace/openkit/protocol/StatusResponseTest.java:611-624 | the multiplicity is taken as sent, including 0 and negatives |
| StatusResponses.CaptureErrorsUnlessZero | src/test/java/com/dynatrace/openkit/protocol/StatusResponseTest.java:509-531 | error capture becomes `n != 0` |
| StatusResponses.CaptureCrashesUnlessZero | src/test/java/com/dynatrace/openkit/protocol/StatusResponseTest.java:560-582 | crash capture becomes `n != 0` |
| StatusResponses.MonitorNameVerbatim | src/test/java/com/dynatrace/openkit/protocol/StatusResponseTest.java:405-414 | the monitor name is kept as text: any value without `&` or `=`, `""` and `1234` included |
| StatusResponses.IntegerKeyRejectsNonNumbers | src/test/java/com/dynatrace/openkit/protocol/StatusResponseTest.java:321-338 | for every integer key, an empty or non-numeric value throws NumberFormat, not IllegalArgument |
| StatusResponses.TwoToThe31Rejected | src/test/java/com/dynatrace/openkit/protocol/StatusResponseTest.java:396-403 | the literal 2^31 throws NumberFormat for every integer key; the parse does not wrap |
| StatusResponses.ConversionWrapExamples | src/test/java/com/dynatrace/openkit/protocol/StatusResponseTest.java:367-376 | 2147484 s → -2147483296 ms, -2147485 s → 2147482296 ms, 2097152 KB → -2^31 B, -2097153 KB → 2147482624 B |
| StatusResponses.ConvertedValueIsNotSentinel | src/test/java/com/dynatrace/openkit/protocol/StatusResponseTest.java:348-376 | a converted send interval or beacon size is even, so it is never -1 |
| StatusResponses.DecodePairSentinels | src/test/java/com/dynatrace/openkit/protocol/StatusResponseTest.java:210-227 | one pair moves the send interval, the beacon size or the monitor name away from its "unspecified" value exactly when it carries that key |
| StatusResponses.DecodedSentinels | src/test/java/com/dynatrace/openkit/protocol/StatusResponseTest.java:210-245 | after decoding a list of pairs, send interval and beacon size are -1 and the monitor name null exactly when their key is absent and the value started unspecified |
| StatusResponses.ParsedSentinelsMeanAbsent | src/test/java/com/dynatrace/openkit/protocol/StatusResponseTest.java:210-245 | for a parsed body: -1, or null for the monitor name, means exactly "key absent from the body" |
| StatusResponses.RetryAfterInMilliseconds | src/test/java/com/dynatrace/openkit/protocol/StatusResponseTest.java:93-146 | any result other than the default comes from a single header value that parses as `n`, and equals `n * 1000` |
| StatusResponses.RetryAfterFallsBackToDefault | src/test/java/com/dynatrace/openkit/protocol/StatusResponseTest.java:93-132 | a missing header, several values, or a value that is not an `int` give the default delay |
| StatusResponses.RetryAfterSeconds | src/test/java/com/dynatrace/openkit/protocol/StatusResponseTest.java:134-146 | a single header value that `Integer.parseInt` reads as `n` (such as `1234`, `+5` or `0012`) gives `n * 1000` ms, computed as a `long` |
| StatusResponses.RetryAfterDecimalSeconds | src/test/java/com/dynatrace/openkit/protocol/StatusResponseTest.java:134-146 | in particular the decimal rendering of any `int` `n` gives `n * 1000` |
| JavaInts.Wrap32 | src/test/java/com/dynatrace/openkit/protocol/StatusResponseTest.java:367-376 | the result is an `int` congruent to the input modulo 2^32, and equals the input when it is already in range |
| JavaInts.Wrap32KeepsParity | src/test/java/com/dynatrace/openkit/protocol/StatusResponseTest.java:367-376 | wrapping keeps the parity |
| JavaInts.Wrap32AddOne | src/main/java/com/dynatrace/openkit/core/Configuration.java:86-88 | incrementing a wrapped counter equals wrapping the incremented count |
| JavaInts.ParseInt32 | src/test/java/com/dynatrace/openkit/protocol/StatusResponseTest.java:321-346 | `""` does not parse; a parsed value starts with a sign or a digit |
| JavaInts.ParseSignedDigits | src/test/java/com/dynatrace/openkit/protocol/StatusResponseTest.java:321-346 | an optional `-` or `+` and a non-empty digit run parse to their signed value when it is in the `int` range, and fail otherwise; leading zeros are allowed |
| JavaInts.PlusSignedNumeral | src/test/java/com/dynatrace/openkit/protocol/StatusResponseTest.java:134-146 | `+5` parses as 5 |
| JavaInts.LeadingZerosNumeral | src/test/java/com/dynatrace/openkit/protocol/StatusResponseTest.java:134-146 | `0012` parses as 12 |
| JavaInts.DecimalRoundTrip | src/test/java/com/dynatrace/openkit/protocol/StatusResponseTest.java:339-346 | parsing the decimal rendering of `n` gives `n` exactly when `n` is in the `int` range, and fails otherwise |
| Strings.SplitOn | src/main/java/com/dynatrace/openkit/core/WebRequestTagStringURL.java:25 | at least one piece, none containing the separator, and joining them gives back the input |
| Strings.SplitOnJoin | src/main/java/com/dynatrace/openkit/core/WebRequestTagStringURL.java:25 | splitting the join of separator-free pieces gives back those pieces |
| Strings.SplitOnCount | src/main/java/com/dynatrace/openkit/core/WebRequestTagStringURL.java:25 | splitting gives one piece more than there are separators |
| Strings.DropTrailingEmpty | src/main/java/com/dynatrace/openkit/core/WebRequestTagStringURL.java:25 | Java `split` keeps a prefix of the pieces, drops only empty ones, and never ends on an empty piece |
| Strings.JavaSplit | src/main/java/com/dynatrace/openkit/core/WebRequestTagStringURL.java:25 | `String.split`: a string without the separator is the one piece `[s]`; otherwise the pieces with exactly the trailing empty ones dropped: a prefix that does not end on `""`, all later pieces being `""`, none containing the separator |
| Strings.PrefixBefore | src/main/java/com/dynatrace/openkit/core/WebRequestTagStringURL.java:25 | the longest separator-free prefix: it stops at the end or at a separator |
| WebRequestTags.AsWrittenKeepsUrlWithoutQuery | src/main/java/com/dynatrace/openkit/core/WebRequestTagStringURL.java:25 | a URL without `?`, including `""`, is kept unchanged |
| WebRequestTags.AsWrittenStripsQuery | src/main/java/com/dynatrace/openkit/core/WebRequestTagStringURL.java:25 | a URL that is not made only of `?` yields its prefix before the first `?` |
| WebRequestTags.AsWrittenThrowsOnOnlyQuestionMarks | src/main/java/com/dynatrace/openkit/core/WebRequestTagStringURL.java:25 | a non-empty URL made only of `?` throws ArrayIndexOutOfBounds |
| WebRequestTags.SingleQuestionMarkThrows | src/main/java/com/dynatrace/openkit/core/WebRequestTagStringURL.java:25 | the URL `?` throws |
| WebRequestTags.StripQueryAsWritten | src/main/java/com/dynatrace/openkit/core/WebRequestTagStringURL.java:25 | `url.split("\\?")[0]`: a successful result has no `?`; a URL without `?` is kept unchanged |
| WebRequestTags.StripQuery | src/main/java/com/dynatrace/openkit/core/WebRequestTagStringURL.java:25 | the result has no `?`, is a prefix of the URL, and stops at the URL's end or at its first `?` |
| WebRequestTags.StripQueryIdempotent | src/main/java/com/dynatrace/openkit/core/WebRequestTagStringURL.java:25 | stripping twice equals stripping once |
| WebRequestTags.StripQueryCorrectsAsWritten | src/main/java/com/dynatrace/openkit/core/WebRequestTagStringURL.java:25 | the corrected version agrees with the source wherever the source does not throw, and the source throws exactly on non-empty all-`?` URLs |
| WebRequestTags.ConstructedUrlAsWritten | src/main/java/com/dynatrace/openkit/core/WebRequestTagStringURL.java:24-26 | the constructor as written: it throws ArrayIndexOutOfBounds exactly for a non-empty URL made only of `?`; otherwise it stores what `ConstructedUrl` stores |
| WebRequestTags.ConstructedUrl | src/main/java/com/dynatrace/openkit/core/WebRequestTagStringURL.java:24-26 | the corrected constructor (see Findings): a null URL leaves the inherited field alone; otherwise the stored URL is the argument's part before its first `?` (a prefix without `?` that stops at the end or at a `?`) |
| Configurations.CreateBaseURL | src/main/java/com/dynatrace/openkit/core/Configuration.java:184-194 | starts with the endpoint and ends with the monitor name; one extra character exactly when the endpoint does not end with `/` and the name does not start with one; the junction always has a `/` |
| Configurations.BaseURLEdgeCases | src/main/java/com/dynatrace/openkit/core/Configuration.java:184-194 | two empty parts give `/`; two slashes are both kept; a single slash on either side is not doubled |
| Configurations.CaptureOnlyOn200 | src/main/java/com/dynatrace/openkit/core/Configuration.java:108-113 | capture is on after an update iff there is a response, its code is 200 and it asks for capture |
| Configurations.NextCapture | src/main/java/com/dynatrace/openkit/core/Configuration.java:108-113 | capture after an update (no contract; stated by `CaptureOnlyOn200`) |
| Configurations.UpdatedSettings | src/main/java/com/dynatrace/openkit/core/Configuration.java:107-167 | capture ends on iff `NextCapture`; with capture off nothing else changes; with capture on send interval and beacon size are never -1 |
| Configurations.CaptureOffFreezesSettings | src/main/java/com/dynatrace/openkit/core/Configuration.java:115-119 | with capture off, send interval, monitor name, server id and beacon size keep their values, and the URL does not change |
| Configurations.CaptureOnTakesResponse | src/main/java/com/dynatrace/openkit/core/Configuration.java:121-166 | with capture on each setting is the response's value, or its default (type default, 120000 or 30720) when the response has the unspecified value; send interval and beacon size are then never -1 |
| Configurations.UpdateIdempotent | src/main/java/com/dynatrace/openkit/core/Configuration.java:107-167 | applying the same response twice equals applying it once, and the second application rebuilds no client |
| Configurations.UpdateKeepsNoSentinel | src/main/java/com/dynatrace/openkit/core/Configuration.java:149-166 | no update brings the send interval or the beacon size to -1 |
| Configurations.ParsedBodySettings | src/main/java/com/dynatrace/openkit/core/Configuration.java:121-166 | for a body parsed with code 200 and capture on: send interval, beacon size and monitor name come from the body if it carries their key, and from their defaults otherwise |
| Configurations.SampleHandshakeSettings | src/test/java/com/dynatrace/openkit/test/appmon/local/AbstractLocalAppMonTest.java:24 | with the AppMon key names, the sample handshake leaves capture on with send interval 120 s, monitor name `dynaTraceMonitor`, server id 1 and the default beacon size |
| Configurations.SessionNumbersIncrease | src/main/java/com/dynatrace/openkit/core/Configuration.java:86-88 | session numbers are 1, 2, 3, …: positive and strictly increasing up to 2^31 - 1 |
| Configurations.SessionNumberWraps | src/main/java/com/dynatrace/openkit/core/Configuration.java:46 | the call after 2^31 - 1 calls returns -2^31, as `AtomicInteger` wraps |
| Configurations.Configuration.ClientFor | src/main/java/com/dynatrace/openkit/core/Configuration.java:179-181 | the client's base URL is `CreateBaseURL(endpoint, name)`: it starts with the endpoint and ends with the monitor name; it carries the application id, the given server id and the verbose flag |
| Configurations.Configuration.constructor | src/main/java/com/dynatrace/openkit/core/Configuration.java:50-69 | capture on, send interval 120000, beacon size 30720, monitor name and server id from the type; no client yet, counter 0 |
| Configurations.Configuration.UpdateCurrentHTTPClient | src/main/java/com/dynatrace/openkit/core/Configuration.java:179-181 | builds one client for the current monitor name and server id and makes it current |
| Configurations.Configuration.Initialize | src/main/java/com/dynatrace/openkit/core/Configuration.java:74-83 | creates the beacon sender and builds the first client for the current settings |
| Configurations.Configuration.CreateSessionNumber | src/main/java/com/dynatrace/openkit/core/Configuration.java:86-88 | returns the number of calls so far, wrapped to `int`, and keeps the counter in step |
| Configurations.Configuration.StartSession | src/main/java/com/dynatrace/openkit/core/Configuration.java:91-96 | the session is handed to the beacon sender iff capture is on; the invariant is kept |
| Configurations.Configuration.FinishSession | src/main/java/com/dynatrace/openkit/core/Configuration.java:99-104 | the beacon sender is told iff capture is on; the invariant is kept |
| Configurations.Configuration.UpdateSettings | src/main/java/com/dynatrace/openkit/core/Configuration.java:107-167 | the new settings are `UpdatedSettings` of the old; sessions are cleared iff capture ends off; a client is built iff the monitor name or the server id changed, and otherwise the current client is kept; the invariant is kept |
| Configurations.Configuration.ApplyResponse | src/main/java/com/dynatrace/openkit/core/Configuration.java:121-166 | the capture-on part of the update reaches `UpdatedSettings` and rebuilds the client iff the URL changed |
| Configurations.Configuration.ApplyAddress | src/main/java/com/dynatrace/openkit/core/Configuration.java:121-147 | monitor name and server id are taken from the response or the type defaults; a client is built iff one of them changed |
| Configurations.Configuration.Shutdown | src/main/java/com/dynatrace/openkit/core/Configuration.java:170-174 | the beacon sender is asked to shut down iff it exists; the invariant, if it held, still holds |

## Left out

- Logging: every `Logger` call is a side effect with no bearing on the results.
- Concurrency: the atomics (`AtomicBoolean capture`, `AtomicInteger nextSessionNumber`) are ordinary fields here, and calls happen one at a time. The beacon sender thread, its sleeping and its handshake retries are not part of this model.
- The beacon sender and `HTTPClientProvider`: their internals are not modelled. `Configuration` records what it asks of them in ghost logs. `Initialize` ends where the beacon sender's blocking handshake starts.
- `HTTPClientProvider.createHTTPClient` is a foreign call. The client is represented by its construction arguments (`HttpClientConfig`).
- `DefaultHTTPClientProvider` is not part of this model: it only wraps that foreign constructor.
- `DeviceImpl` and the getters of `Configuration` and `ResponseImpl` are not modelled; the getters are direct field reads of the modelled state.
- Configurations.Configuration.UpdateSettings, StartSession and FinishSession: these require `Initialize` to have run, so a call before initialisation is not modelled. In the source only some paths touch the beacon sender:
  - `updateSettings` calls `clearSessions` only on the capture-off path (Configuration.java:116-118); the capture-on path (Configuration.java:121-166) needs no sender;
  - `startSession` and `finishSession` use it only when capture is on (Configuration.java:93-94, 101-102).
  The `requires` reflects how the class is used: the beacon sender created by `initialize` is the only caller of `updateSettings`, and sessions start only after `initialize`.
- `ResponseImpl.withKeyValueDefaults`, `withJsonDefaults` and `withUndefinedDefaults` (ResponseImpl.java:238-254) build from `ResponseDefaults` presets, which are not part of this model. Any preset can be passed to `Builder.constructor` as a `Response` value. `MergeUnsetIsIdentity` covers the all-unset preset.
- Responses.Response.Merge: the source's merged response shares the builder's attribute set by reference (ResponseImpl.java:47). This aliasing is not modelled, because the builder is discarded after `build()`.
- The fluent `return this` of the `withX` setters is not modelled; chaining is the same sequence of calls.
- The JSON response format and its parser are not part of this model.
- JavaInts.ParseInt32 accepts an optional sign and ASCII digits in the `int` range. Non-ASCII Unicode digits, which `Integer.parseInt` also accepts, are not modelled.
- Header-map identity (StatusResponseTest.java:81-91) is reference identity; the model only keeps the map's value.
- StatusResponses.DecodePair: for keys the tests never combine, the order in which a body's keys are examined is a choice. It makes no difference when the keys are distinct, which `ProtocolConstants.Valid` requires.
- StatusResponses.ParseResponseKeyValuePair: the tests do not fix bodies with an empty piece (`a=1&&b=2`) or a piece with several `=` (`a=b=c`, `k==v`). The model rejects them all, following the rule that splitting on `&` and `=` must give two tokens per pair. A tokenizer that skips empty tokens could accept some of them.

## Findings

| source | as written | input that shows it | evidently intended | confidence | as-written member | corrected member |
|---|---|---|---|---|---|---|
| src/main/java/com/dynatrace/openkit/core/WebRequestTagStringURL.java:25 | `url.split("\\?")[0]` drops the trailing empty strings, so a non-empty URL made only of `?` splits into an empty array and `[0]` throws ArrayIndexOutOfBoundsException | `"?"` | keep the part before the first `?`, which is `""` here | not executed | WebRequestTags.StripQueryAsWritten and WebRequestTags.ConstructedUrlAsWritten (shown by WebRequestTags.SingleQuestionMarkThrows) | WebRequestTags.StripQuery and the corrected constructor WebRequestTags.ConstructedUrl (WebRequestTags.StripQueryCorrectsAsWritten) |

=== FILE: configurations.dfy ===
/**
 * The client-side configuration of OpenKit: settings fixed at construction,
 * settings the server may change through a status response, the HTTP client
 * that addresses the current monitor and server, and the session counter.
 * The beacon sender and the HTTP client provider are not modelled; their
 * effects are recorded in ghost logs.
 */
module Configurations {
  import opened Wrappers
  import opened JavaInts
  import opened StatusResponses

  /** The two back ends an OpenKit instance can talk to; each brings its own defaults. */
  datatype OpenKitKind = Dynatrace | AppMon

  datatype OpenKitType = OpenKitType(kind: OpenKitKind, defaultMonitorName: string, defaultServerID: Int32)

  const DefaultCapture: bool := true
  /** Two minutes, in milliseconds. */
  const DefaultSendInterval: Int32 := 2 * 60 * 1000
  /** 30 kilobytes, in bytes. */
  const DefaultMaxBeaconSize: Int32 := 30 * 1024

  /** What `HTTPClientProvider.createHTTPClient` is given to build a client. */
  datatype HttpClientConfig = HttpClientConfig(baseURL: string, applicationID: string, serverID: Int32, verbose: bool)

  /** A started or finished session, by identity. */
  type SessionHandle = nat

  // Java's `startsWith("/")` and `endsWith("/")`: both are false for "".
  predicate StartsWithSlash(s: string) {
    |s| > 0 && s[0] == '/'
  }

  predicate EndsWithSlash(s: string) {
    |s| > 0 && s[|s| - 1] == '/'
  }

  /**
   * The base URL of the HTTP client: the endpoint followed by the monitor
   * name, with one '/' put between them only when neither side brings one.
   */
  function CreateBaseURL(endpointURL: string, monitorName: string): (url: string)
    ensures |url| >= |endpointURL| + |monitorName|
    ensures url[..|endpointURL|] == endpointURL
    ensures url[|url| - |monitorName|..] == monitorName
    ensures |url| == |endpointURL| + |monitorName| + 1
        <==> !EndsWithSlash(endpointURL) && !StartsWithSlash(monitorName)
    ensures |url| <= |endpointURL| + |monitorName| + 1
    // the junction always carries a slash
    ensures (|endpointURL| > 0 && url[|endpointURL| - 1] == '/')
         || (|url| > |endpointURL| && url[|endpointURL|] == '/')
  {
    if !EndsWithSlash(endpointURL) && !StartsWithSlash(monitorName) then
      endpointURL + "/" + monitorName
    else
      endpointURL + monitorName
  }

  /** The builder appends verbatim: two empty parts give "/", and two slashes are both kept. */
  lemma BaseURLEdgeCases()
    ensures CreateBaseURL("", "") == "/"
    ensures CreateBaseURL("https://host/", "/mbeacon") == "https://host//mbeacon"
    ensures CreateBaseURL("https://host/", "mbeacon") == "https://host/mbeacon"
    ensures CreateBaseURL("https://host", "mbeacon") == "https://host/mbeacon"
  {
    assert "https://host/" + "/mbeacon" == "https://host//mbeacon";
    assert "https://host/" + "mbeacon" == "https://host/mbeacon";
    assert "https://host" + "/" + "mbeacon" == "https://host/mbeacon";
  }

  /** The server-controlled part of the configuration. */
  datatype Settings = Settings(capture: bool, sendInterval: Int32, monitorName: string, serverID: Int32, maxBeaconSize: Int32)

  function InitialSettings(openKitType: OpenKitType): Settings {
    Settings(DefaultCapture, DefaultSendInterval, openKitType.defaultMonitorName,
             openKitType.defaultServerID, DefaultMaxBeaconSize)
  }

  /** Capture stays on only for a present response with code 200 that asks for capture. */
  predicate NextCapture(statusResponse: Option<StatusResponse>) {
    statusResponse.Some? && statusResponse.value.responseCode == 200 && statusResponse.value.capture
  }

  /**
   * The settings after `updateSettings`: with capture off only the capture
   * flag changes; with capture on every other setting comes from the response,
   * falling back to the type's or the built-in default where the response
   * carries its "unspecified" value.
   */
  function UpdatedSettings(s: Settings, statusResponse: Option<StatusResponse>, openKitType: OpenKitType): (t: Settings)
    ensures t.capture <==> NextCapture(statusResponse)
    ensures !t.capture ==> t == s.(capture := false)
    ensures t.capture ==> t.sendInterval != -1 && t.maxBeaconSize != -1
  {
    if !NextCapture(statusResponse) then s.(capture := false)
    else
      var r := statusResponse.value;
      Settings(true,
               if r.sendInterval == -1 then DefaultSendInterval else r.sendInterval,
               if r.monitorName.None? then openKitType.defaultMonitorName else r.monitorName.value,
               if r.serverID == -1 then openKitType.defaultServerID else r.serverID,
               if r.maxBeaconSize == -1 then DefaultMaxBeaconSize else r.maxBeaconSize)
  }

  /** Whether the update changes the URL, that is the monitor name or the server id. */
  predicate UrlChanges(s: Settings, statusResponse: Option<StatusResponse>, openKitType: OpenKitType) {
    var t := UpdatedSettings(s, statusResponse, openKitType);
    t.monitorName != s.monitorName || t.serverID != s.serverID
  }

  /** Capture is on after an update exactly for a 200 response that asks for it; 4xx is not singled out. */
  lemma CaptureOnlyOn200(s: Settings, statusResponse: Option<StatusResponse>, openKitType: OpenKitType)
    ensures UpdatedSettings(s, statusResponse, openKitType).capture
        <==> statusResponse.Some? && statusResponse.value.responseCode == 200 && statusResponse.value.capture
    ensures statusResponse.Some? && statusResponse.value.responseCode != 200
        ==> !UpdatedSettings(s, statusResponse, openKitType).capture
  {
  }

  /** With capture off every other setting keeps its value, so the URL cannot change. */
  lemma CaptureOffFreezesSettings(s: Settings, statusResponse: Option<StatusResponse>, openKitType: OpenKitType)
    requires !UpdatedSettings(s, statusResponse, openKitType).capture
    ensures var t := UpdatedSettings(s, statusResponse, openKitType);
      && t.sendInterval == s.sendInterval && t.monitorName == s.monitorName
      && t.serverID == s.serverID && t.maxBeaconSize == s.maxBeaconSize
    ensures !UrlChanges(s, statusResponse, openKitType)
  {
  }

  /**
   * With capture on, the response's values are taken unless they are the
   * "unspecified" value, and the settings never keep -1 for the send
   * interval or the beacon size.
   */
  lemma CaptureOnTakesResponse(s: Settings, statusResponse: Option<StatusResponse>, openKitType: OpenKitType)
    requires UpdatedSettings(s, statusResponse, openKitType).capture
    ensures var t := UpdatedSettings(s, statusResponse, openKitType);
      var r := statusResponse.value;
      && t.sendInterval != -1 && t.maxBeaconSize != -1
      && (r.sendInterval != -1 ==> t.sendInterval == r.sendInterval)
      && (r.maxBeaconSize != -1 ==> t.maxBeaconSize == r.maxBeaconSize)
      && (r.serverID != -1 ==> t.serverID == r.serverID)
      && (r.monitorName.Some? ==> t.monitorName == r.monitorName.value)
      && (r.sendInterval == -1 ==> t.sendInterval == DefaultSendInterval)
      && (r.maxBeaconSize == -1 ==> t.maxBeaconSize == DefaultMaxBeaconSize)
      && (r.serverID == -1 ==> t.serverID == openKitType.defaultServerID)
      && (r.monitorName.None? ==> t.monitorName == openKitType.defaultMonitorName)
  {
  }

  /** Applying the same response twice has the effect of applying it once, and the second application keeps the URL. */
  lemma UpdateIdempotent(s: Settings, statusResponse: Option<StatusResponse>, openKitType: OpenKitType)
    ensures var t := UpdatedSettings(s, statusResponse, openKitType);
      UpdatedSettings(t, statusResponse, openKitType) == t && !UrlChanges(t, statusResponse, openKitType)
  {
  }

  /** No update can bring the send interval or the beacon size to -1. */
  lemma UpdateKeepsNoSentinel(s: Settings, statusResponse: Option<StatusResponse>, openKitType: OpenKitType)
    requires s.sendInterval != -1 && s.maxBeaconSize != -1
    ensures UpdatedSettings(s, statusResponse, openKitType).sendInterval != -1
    ensures UpdatedSettings(s, statusResponse, openKitType).maxBeaconSize != -1
  {
  }

  /**
   * From body to settings: for a body parsed with code 200 that leaves
   * capture on, the send interval and the beacon size fall back to their
   * defaults exactly when the body does not carry their key, and the monitor
   * name to the type's default exactly when the body does not carry its key.
   */
  lemma ParsedBodySettings(s: Settings, body: string, headers: map<string, seq<string>>,
                           k: ProtocolConstants, openKitType: OpenKitType)
    requires k.Valid()
    requires ParseStatusResponse(Some(body), 200, headers, k).Success?
    requires ParseStatusResponse(Some(body), 200, headers, k).value.capture
    ensures var r := ParseStatusResponse(Some(body), 200, headers, k).value;
      var pairs := ParseResponseKeyValuePair(body).value;
      var t := UpdatedSettings(s, Some(r), openKitType);
      && t.capture
      && t.sendInterval == (if KeyPresent(pairs, k.keySendInterval) then r.sendInterval else DefaultSendInterval)
      && t.maxBeaconSize == (if KeyPresent(pairs, k.keyMaxBeaconSize) then r.maxBeaconSize else DefaultMaxBeaconSize)
      && (KeyPresent(pairs, k.keyMonitorName) ==> Some(t.monitorName) == r.monitorName)
      && (!KeyPresent(pairs, k.keyMonitorName) ==> t.monitorName == openKitType.defaultMonitorName)
  {
    var r := ParseStatusResponse(Some(body), 200, headers, k).value;
    ParsedSentinelsMeanAbsent(body, 200, headers, k);
    CaptureOnTakesResponse(s, Some(r), openKitType);
  }

  /**
   * The handshake of the local AppMon tests: with the AppMon key names, a 200
   * response with the sample body leaves capture on, takes monitor name and
   * server id from the body, and a send interval of 120 s, which is also the
   * default; the beacon size falls back to its default.
   */
  lemma SampleHandshakeSettings(s: Settings, headers: map<string, seq<string>>, k: ProtocolConstants, openKitType: OpenKitType)
    requires k.Valid()
    requires k.keySendInterval == "si" && k.keyMonitorName == "bn" && k.keyServerId == "id"
    requires "type" !in k.BodyKeys()
    ensures var r := ParseStatusResponse(Some("type=m&si=120&bn=dynaTraceMonitor&id=1"), 200, headers, k);
      && r.Success?
      && UpdatedSettings(s, Some(r.value), openKitType)
         == Settings(true, DefaultSendInterval, "dynaTraceMonitor", 1, DefaultMaxBeaconSize)
  {
    SampleBodyDecodes(headers, k);
  }

  /** The n-th call of `createSessionNumber` returns the Java `int` wrap of n. */
  function SessionNumberAfter(calls: nat): Int32 {
    Wrap32(calls)
  }

  /** Session numbers are 1, 2, 3, ...: positive and strictly increasing until the `int` range is used up. */
  lemma SessionNumbersIncrease(i: nat, j: nat)
    requires 1 <= i < j <= MaxInt32
    ensures 0 < SessionNumberAfter(i) < SessionNumberAfter(j)
    ensures SessionNumberAfter(i) == i && SessionNumberAfter(j) == j
  {
  }

  /** The call after 2^31 - 1 calls wraps to the least `int`, as AtomicInteger does. */
  lemma SessionNumberWraps()
    ensures SessionNumberAfter(MaxInt32 as nat) == MaxInt32
    ensures SessionNumberAfter(MaxInt32 as nat + 1) == MinInt32
  {
  }

  class Configuration {
    // settings fixed at construction
    const openKitType: OpenKitType
    const applicationName: string
    const applicationID: string
    const visitorID: Int64
    const endpointURL: string
    const verbose: bool

    // settings the server may change
    var capture: bool
    var sendInterval: Int32
    var monitorName: string
    var serverID: Int32
    var maxBeaconSize: Int32

    /** None until `Initialize` has built the first client. */
    var currentHTTPClient: Option<HttpClientConfig>
    var nextSessionNumber: Int32

    // what the beacon sender and the client provider were asked to do
    ghost var hasBeaconSender: bool
    ghost var sessionsCleared: nat
    ghost var clientBuilds: seq<HttpClientConfig>
    ghost var startedSessions: seq<SessionHandle>
    ghost var finishedSessions: seq<SessionHandle>
    ghost var shutdownRequests: nat
    ghost var issuedSessionNumbers: nat

    function CurrentSettings(): Settings
      reads this
    {
      Settings(capture, sendInterval, monitorName, serverID, maxBeaconSize)
    }

    /** The client `updateCurrentHTTPClient` builds for the given monitor name and server id. */
    function ClientFor(monitorName: string, serverID: Int32): (client: HttpClientConfig)
      ensures client.baseURL == CreateBaseURL(endpointURL, monitorName)
      ensures |client.baseURL| >= |endpointURL| + |monitorName|
      ensures client.baseURL[..|endpointURL|] == endpointURL
      ensures client.baseURL[|client.baseURL| - |monitorName|..] == monitorName
      ensures client.applicationID == applicationID && client.serverID == serverID && client.verbose == verbose
    {
      HttpClientConfig(CreateBaseURL(endpointURL, monitorName), applicationID, serverID, verbose)
    }

    /**
     * The session counter matches the calls made so far; the send interval
     * and beacon size are never the "unspecified" -1; once initialised, the
     * current HTTP client is the last one built and addresses the current
     * monitor name and server id.
     */
    ghost predicate Valid()
      reads this
    {
      && nextSessionNumber == SessionNumberAfter(issuedSessionNumbers)
      && sendInterval != -1 && maxBeaconSize != -1
      && (hasBeaconSender <==> currentHTTPClient.Some?)
      && (currentHTTPClient.None? <==> clientBuilds == [])
      && (currentHTTPClient.Some? ==>
            && currentHTTPClient.value == ClientFor(monitorName, serverID)
            && clientBuilds[|clientBuilds| - 1] == currentHTTPClient.value)
    }

    constructor (applicationName: string, applicationID: string, visitorID: Int64, endpointURL: string,
                 openKitType: OpenKitType, verbose: bool)
      ensures Valid()
      ensures CurrentSettings() == InitialSettings(openKitType)
      ensures this.applicationName == applicationName && this.applicationID == applicationID
      ensures this.visitorID == visitorID && this.endpointURL == endpointURL
      ensures this.openKitType == openKitType && this.verbose == verbose
      ensures currentHTTPClient == None && nextSessionNumber == 0
      ensures !hasBeaconSender && sessionsCleared == 0 && clientBuilds == []
      ensures startedSessions == [] && finishedSessions == [] && shutdownRequests == 0
      ensures issuedSessionNumbers == 0
    {
      this.verbose := verbose;
      this.openKitType := openKitType;
      this.applicationName := applicationName;
      this.applicationID := applicationID;
      this.visitorID := visitorID;
      this.endpointURL := endpointURL;
      capture := DefaultCapture;
      sendInterval := DefaultSendInterval;
      monitorName := openKitType.defaultMonitorName;
      serverID := openKitType.defaultServerID;
      maxBeaconSize := DefaultMaxBeaconSize;
      currentHTTPClient := None;
      nextSessionNumber := 0;
      hasBeaconSender := false;
      sessionsCleared := 0;
      clientBuilds := [];
      startedSessions := [];
      finishedSessions := [];
      shutdownRequests := 0;
      issuedSessionNumbers := 0;
    }

    /** Builds a client for the current monitor name and server id and makes it current. */
    method UpdateCurrentHTTPClient()
      modifies this`currentHTTPClient, this`clientBuilds
      ensures currentHTTPClient == Some(ClientFor(monitorName, serverID))
      ensures clientBuilds == old(clientBuilds) + [ClientFor(monitorName, serverID)]
    {
      currentHTTPClient := Some(ClientFor(monitorName, serverID));
      clientBuilds := clientBuilds + [currentHTTPClient.value];
    }

    /**
     * Creates the beacon sender and the first HTTP client. The handshake the
     * beacon sender then performs is not part of this model.
     */
    method Initialize()
      requires Valid()
      modifies this`hasBeaconSender, this`currentHTTPClient, this`clientBuilds
      ensures Valid() && hasBeaconSender
      ensures currentHTTPClient == Some(ClientFor(monitorName, serverID))
      ensures clientBuilds == old(clientBuilds) + [ClientFor(monitorName, serverID)]
    {
      hasBeaconSender := true;
      UpdateCurrentHTTPClient();
    }

    /** Returns the next session number: the number of calls so far, as a Java `int`. */
    method CreateSessionNumber() returns (sessionNumber: Int32)
      requires Valid()
      modifies this`nextSessionNumber, this`issuedSessionNumbers
      ensures Valid()
      ensures issuedSessionNumbers == old(issuedSessionNumbers) + 1
      ensures sessionNumber == nextSessionNumber == SessionNumberAfter(issuedSessionNumbers)
    {
      Wrap32AddOne(issuedSessionNumbers);
      nextSessionNumber := Wrap32(nextSessionNumber + 1);
      issuedSessionNumbers := issuedSessionNumbers + 1;
      sessionNumber := nextSessionNumber;
    }

    /** Hands the session to the beacon sender, but only while capture is on. */
    method StartSession(session: SessionHandle)
      requires Valid() && hasBeaconSender
      modifies this`startedSessions
      ensures startedSessions == old(startedSessions) + (if capture then [session] else [])
      ensures Valid()
    {
      if capture {
        startedSessions := startedSessions + [session];
      }
    }

    /** Tells the beacon sender the session ended, but only while capture is on. */
    method FinishSession(session: SessionHandle)
      requires Valid() && hasBeaconSender
      modifies this`finishedSessions
      ensures finishedSessions == old(finishedSessions) + (if capture then [session] else [])
      ensures Valid()
    {
      if capture {
        finishedSessions := finishedSessions + [session];
      }
    }

    /**
     * Applies a status response (None for a missing one). With capture off the
     * beacon sender's sessions are cleared and nothing else changes; with
     * capture on the settings are taken over and the HTTP client is rebuilt
     * exactly when the monitor name or the server id changed.
     */
    method UpdateSettings(statusResponse: Option<StatusResponse>)
      requires Valid() && hasBeaconSender
      modifies this`capture, this`sendInterval, this`monitorName, this`serverID, this`maxBeaconSize
      modifies this`currentHTTPClient, this`clientBuilds, this`sessionsCleared
      ensures Valid()
      ensures CurrentSettings() == UpdatedSettings(old(CurrentSettings()), statusResponse, openKitType)
      ensures sessionsCleared == old(sessionsCleared) + (if capture then 0 else 1)
      ensures clientBuilds == old(clientBuilds)
                + (if UrlChanges(old(CurrentSettings()), statusResponse, openKitType) then [currentHTTPClient.value] else [])
      ensures !UrlChanges(old(CurrentSettings()), statusResponse, openKitType)
          ==> currentHTTPClient == old(currentHTTPClient)
    {
      ghost var before := CurrentSettings();
      if statusResponse.None? || statusResponse.value.responseCode != 200 {
        capture := false;
      } else {
        capture := statusResponse.value.capture;
      }

      if !capture {
        sessionsCleared := sessionsCleared + 1;
        return;
      }

      ApplyResponse(statusResponse.value);
    }

    /** The capture-on part of `UpdateSettings`, once capture has been switched on. */
    method ApplyResponse(response: StatusResponse)
      requires Valid() && hasBeaconSender && capture
      requires response.responseCode == 200 && response.capture
      modifies this`sendInterval, this`monitorName, this`serverID, this`maxBeaconSize
      modifies this`currentHTTPClient, this`clientBuilds
      ensures Valid()
      ensures CurrentSettings() == UpdatedSettings(old(CurrentSettings()), Some(response), openKitType)
      ensures clientBuilds == old(clientBuilds)
                + (if UrlChanges(old(CurrentSettings()), Some(response), openKitType) then [currentHTTPClient.value] else [])
      ensures !UrlChanges(old(CurrentSettings()), Some(response), openKitType)
          ==> currentHTTPClient == old(currentHTTPClient)
    {
      ghost var target := UpdatedSettings(CurrentSettings(), Some(response), openKitType);
      ghost var changes := UrlChanges(CurrentSettings(), Some(response), openKitType);
      ApplyAddress(response);
      assert monitorName == target.monitorName && serverID == target.serverID;

      var newSendInterval := response.sendInterval;
      if newSendInterval == -1 {
        newSendInterval := DefaultSendInterval;
      }
      if sendInterval != newSendInterval {
        sendInterval := newSendInterval;
      }

      var newMaxBeaconSize := response.maxBeaconSize;
      if newMaxBeaconSize == -1 {
        newMaxBeaconSize := DefaultMaxBeaconSize;
      }
      if maxBeaconSize != newMaxBeaconSize {
        maxBeaconSize := newMaxBeaconSize;
      }
      assert CurrentSettings() == target;
    }

    /**
     * Takes over monitor name and server id (or their type defaults) and
     * rebuilds the HTTP client when either of them changed.
     */
    method ApplyAddress(response: StatusResponse)
      requires Valid() && hasBeaconSender
      modifies this`monitorName, this`serverID, this`currentHTTPClient, this`clientBuilds
      ensures Valid()
      ensures monitorName == response.monitorName.GetOr(openKitType.defaultMonitorName)
      ensures serverID == (if response.serverID == -1 then openKitType.defaultServerID else response.serverID)
      ensures var changed := monitorName != old(monitorName) || serverID != old(serverID);
        && clientBuilds == old(clientBuilds) + (if changed then [currentHTTPClient.value] else [])
        && (!changed ==> currentHTTPClient == old(currentHTTPClient))
    {
      var newMonitorName := response.monitorName.GetOr(openKitType.defaultMonitorName);
      var newServerID := response.serverID;
      if newServerID == -1 {
        newServerID := openKitType.defaultServerID;
      }

      var urlChanged := false;
      if monitorName != newMonitorName {
        monitorName := newMonitorName;
        urlChanged := true;
      }
      if serverID != newServerID {
        serverID := newServerID;
        urlChanged := true;
      }
      if urlChanged {
        UpdateCurrentHTTPClient();
      }
    }

    /** Asks the beacon sender, if there is one, to shut down. */
    method Shutdown()
      modifies this`shutdownRequests
      ensures shutdownRequests == old(shutdownRequests) + (if hasBeaconSender then 1 else 0)
      ensures old(Valid()) ==> Valid()
    {
      if hasBeaconSender {
        shutdownRequests := shutdownRequests + 1;
      }
    }
  }
}

=== FILE: java_ints.dfy ===
/**
 * Java's fixed-width integers over Dafny's unbounded `int`: the `int` and
 * `long` ranges, the two's-complement wrap-around of `int` arithmetic, and
 * `Integer.parseInt` for decimal strings.
 */
module JavaInts {
  import opened Wrappers

  const MinInt32: int := -0x8000_0000
  const MaxInt32: int := 0x7fff_ffff
  const TwoTo32: int := 0x1_0000_0000

  predicate InInt32(x: int) {
    MinInt32 <= x <= MaxInt32
  }

  /** A Java `int`. */
  type Int32 = x: int | MinInt32 <= x <= MaxInt32

  /** A Java `long`. */
  type Int64 = x: int | -0x8000_0000_0000_0000 <= x <= 0x7fff_ffff_ffff_ffff

  /**
   * The value a Java `int` expression yields when its mathematical value is `x`:
   * the unique `int` congruent to `x` modulo 2^32.
   */
  function Wrap32(x: int): (r: Int32)
    ensures (r - x) % TwoTo32 == 0
    ensures InInt32(x) ==> r == x
  {
    (x + 0x8000_0000) % TwoTo32 - 0x8000_0000
  }

  /** Wrapping never changes parity, because 2^32 is even. */
  lemma Wrap32KeepsParity(x: int)
    ensures Wrap32(x) % 2 == x % 2
  {
    var r := Wrap32(x);
    var m := (r - x) / TwoTo32;
    assert r - x == TwoTo32 * m;
    var k := 0x8000_0000 * m;
    assert r == x + 2 * k;
    EvenShiftKeepsParity(x, k);
  }

  lemma EvenShiftKeepsParity(x: int, k: int)
    ensures (x + 2 * k) % 2 == x % 2
  {
  }

  /** Wrapping twice is wrapping once, even when an addition sits in between. */
  lemma Wrap32AddOne(x: int)
    ensures Wrap32(Wrap32(x) + 1) == Wrap32(x + 1)
  {
    var w := Wrap32(x);
    var m := (w - x) / TwoTo32;
    assert w - x == TwoTo32 * m;
    Wrap32Shift(x + 1, m);
  }

  lemma Wrap32Shift(x: int, m: int)
    ensures Wrap32(x + TwoTo32 * m) == Wrap32(x)
  {
    var a := Wrap32(x);
    var b := Wrap32(x + TwoTo32 * m);
    assert (a - b) % TwoTo32 == 0 by {
      var p := (a - x) / TwoTo32;
      var q := (b - x - TwoTo32 * m) / TwoTo32;
      assert a - x == TwoTo32 * p;
      assert b - x - TwoTo32 * m == TwoTo32 * q;
      assert a - b == TwoTo32 * (p - q - m);
    }
  }

  // ---------------------------------------------------------------------
  // Integer.parseInt(s) with radix 10
  // ---------------------------------------------------------------------

  predicate IsDigit(c: char) {
    '0' <= c <= '9'
  }

  predicate AllDigits(s: string) {
    forall i :: 0 <= i < |s| ==> IsDigit(s[i])
  }

  /** The number a run of decimal digits denotes; the empty run denotes 0. */
  function DigitsValue(s: string): (n: nat)
    requires AllDigits(s)
    decreases |s|
  {
    if |s| == 0 then 0
    else 10 * DigitsValue(s[..|s| - 1]) + (s[|s| - 1] as int - '0' as int)
  }

  /**
   * `Integer.parseInt(s)`: an optional `-` or `+`, then at least one ASCII
   * digit, denoting a value inside the `int` range. Anything else (the empty
   * string, a bare sign, a letter, 2^31 or more) is a `NumberFormatException`,
   * here `None`.
   */
  function ParseInt32(s: string): (r: Option<Int32>)
    ensures r.Some? ==> |s| > 0 && (s[0] == '-' || s[0] == '+' || IsDigit(s[0]))
    ensures s == [] ==> r == None
  {
    var negative := |s| > 0 && s[0] == '-';
    var digits := if |s| > 0 && (s[0] == '-' || s[0] == '+') then s[1..] else s;
    if |digits| == 0 || !AllDigits(digits) then None
    else
      var magnitude: int := DigitsValue(digits);
      var v := if negative then -magnitude else magnitude;
      if InInt32(v) then Some(v) else None
  }

  /**
   * The value of any numeral `Integer.parseInt` reads: an optional sign, then
   * a non-empty run of digits, leading zeros allowed.
   */
  lemma ParseSignedDigits(sign: string, digits: string)
    requires sign == "" || sign == "-" || sign == "+"
    requires |digits| > 0 && AllDigits(digits)
    ensures var v := if sign == "-" then 0 - DigitsValue(digits) else 0 + DigitsValue(digits);
      ParseInt32(sign + digits) == if InInt32(v) then Some(v) else None
  {
    if sign == "" {
      ParseUnsignedDigits(digits);
    } else {
      var s := sign + digits;
      assert s[0] == sign[0] && s[1..] == digits;
      ParseSignedNumeral(s);
    }
  }

  lemma ParseSignedNumeral(s: string)
    requires |s| > 1 && (s[0] == '-' || s[0] == '+') && AllDigits(s[1..])
    ensures var v := if s[0] == '-' then 0 - DigitsValue(s[1..]) else 0 + DigitsValue(s[1..]);
      ParseInt32(s) == if InInt32(v) then Some(v) else None
  {
  }

  lemma ParseUnsignedDigits(digits: string)
    requires |digits| > 0 && AllDigits(digits)
    ensures ParseInt32("" + digits) == if InInt32(DigitsValue(digits)) then Some(DigitsValue(digits)) else None
  {
    assert "" + digits == digits;
    assert IsDigit(digits[0]);
  }

  /** A numeral with a `+` sign, which IntToDecimal never writes: "+5" is 5. */
  lemma PlusSignedNumeral()
    ensures ParseInt32("+5") == Some(5)
  {
    assert "+" + "5" == "+5";
    assert "5"[..0] == "";
    ParseSignedDigits("+", "5");
  }

  /** A numeral with leading zeros, which IntToDecimal never writes: "0012" is 12. */
  lemma LeadingZerosNumeral()
    ensures ParseInt32("0012") == Some(12)
  {
    assert "0012"[..3] == "001" && "001"[..2] == "00" && "00"[..1] == "0" && "0"[..0] == "";
    assert DigitsValue("0") == 0;
    assert DigitsValue("00") == 0;
    assert DigitsValue("001") == 1;
    assert DigitsValue("0012") == 12;
    ParseUnsignedDigits("0012");
    assert "" + "0012" == "0012";
  }

  // ---------------------------------------------------------------------
  // Decimal rendering, the partner of ParseInt32
  // ---------------------------------------------------------------------

  function DigitChar(d: nat): (c: char)
    requires d < 10
    ensures IsDigit(c) && c as int - '0' as int == d
  {
    (d + '0' as int) as char
  }

  /** The shortest decimal digit string of `n`. */
  function NatToDigits(n: nat): (s: string)
    ensures |s| > 0 && AllDigits(s)
    decreases n
  {
    if n < 10 then [DigitChar(n)] else NatToDigits(n / 10) + [DigitChar(n % 10)]
  }

  /** The string `Integer.toString(n)` would give for a value in range. */
  function IntToDecimal(n: int): string {
    if n < 0 then "-" + NatToDigits(-n) else NatToDigits(n)
  }

  lemma {:induction false} NatToDigitsValue(n: nat)
    ensures DigitsValue(NatToDigits(n)) == n
    decreases n
  {
    var s := NatToDigits(n);
    if n >= 10 {
      NatToDigitsValue(n / 10);
      assert s[..|s| - 1] == NatToDigits(n / 10);
    }
  }

  /**
   * Round trip: `Integer.parseInt` reads back exactly the `int` values, and
   * refuses every decimal numeral outside the `int` range.
   */
  lemma {:induction false} DecimalRoundTrip(n: int)
    ensures ParseInt32(IntToDecimal(n)) == (if InInt32(n) then Some(n) else None)
  {
    var s := IntToDecimal(n);
    if n < 0 {
      var d := NatToDigits(-n);
      assert s[0] == '-' && s[1..] == d;
      NatToDigitsValue(-n);
      assert DigitsValue(d) == -n;
    } else {
      assert IsDigit(s[0]);
      NatToDigitsValue(n);
      assert DigitsValue(s) == n;
    }
  }
}

=== FILE: responses.dfy ===
/**
 * `ResponseImpl`: an immutable record of twelve server-advertised tuning
 * values, each with its own "was set" flag, the right-biased `merge` of two
 * such records, and the `Builder` that produces them.
 */
module Responses {
  import opened JavaInts

  /** The twelve members of the `ResponseAttribute` enum, in declaration order of the fields. */
  datatype ResponseAttribute =
    | MaxBeaconSize
    | MaxSessionDuration
    | MaxEventsPerSession
    | SessionTimeout
    | SendInterval
    | VisitStoreVersion
    | IsCapture
    | IsCaptureCrashes
    | IsCaptureErrors
    | Multiplicity
    | ServerId
    | Timestamp

  /** `ResponseAttribute.values()`. */
  const AllAttributes: seq<ResponseAttribute> := [
    MaxBeaconSize, MaxSessionDuration, MaxEventsPerSession, SessionTimeout,
    SendInterval, VisitStoreVersion, IsCapture, IsCaptureCrashes,
    IsCaptureErrors, Multiplicity, ServerId, Timestamp
  ]

  lemma AllAttributesListed(attribute: ResponseAttribute)
    ensures attribute in AllAttributes
  {
  }

  /** The value of one attribute, whatever its Java type (`int`, `boolean` or `long`). */
  datatype AttributeValue = IntValue(i: int) | BoolValue(b: bool)

  datatype Response = Response(
    setAttributes: set<ResponseAttribute>,
    maxBeaconSizeInBytes: Int32,
    maxSessionDurationInMilliseconds: Int32,
    maxEventsPerSession: Int32,
    sessionTimeoutInMilliseconds: Int32,
    sendIntervalInMilliseconds: Int32,
    visitStoreVersion: Int32,
    isCapture: bool,
    isCaptureCrashes: bool,
    isCaptureErrors: bool,
    multiplicity: Int32,
    serverId: Int32,
    timestampInMilliseconds: Int64)
  {
    predicate IsAttributeSet(attribute: ResponseAttribute) {
      attribute in setAttributes
    }

    /** The getter that belongs to `attribute`. */
    function ValueOf(attribute: ResponseAttribute): AttributeValue {
      match attribute
      case MaxBeaconSize => IntValue(maxBeaconSizeInBytes)
      case MaxSessionDuration => IntValue(maxSessionDurationInMilliseconds)
      case MaxEventsPerSession => IntValue(maxEventsPerSession)
      case SessionTimeout => IntValue(sessionTimeoutInMilliseconds)
      case SendInterval => IntValue(sendIntervalInMilliseconds)
      case VisitStoreVersion => IntValue(visitStoreVersion)
      case IsCapture => BoolValue(isCapture)
      case IsCaptureCrashes => BoolValue(isCaptureCrashes)
      case IsCaptureErrors => BoolValue(isCaptureErrors)
      case Multiplicity => IntValue(multiplicity)
      case ServerId => IntValue(serverId)
      case Timestamp => IntValue(timestampInMilliseconds)
    }

    /**
     * `this.merge(response)`: start from a copy of `this` and overwrite exactly
     * the fields `response` marks as set.
     */
    function Merge(response: Response): (r: Response)
      ensures r.setAttributes == setAttributes + response.setAttributes
    {
      Response(
        setAttributes + response.setAttributes,
        Pick(MaxBeaconSize in response.setAttributes, response.maxBeaconSizeInBytes, maxBeaconSizeInBytes),
        Pick(MaxSessionDuration in response.setAttributes, response.maxSessionDurationInMilliseconds, maxSessionDurationInMilliseconds),
        Pick(MaxEventsPerSession in response.setAttributes, response.maxEventsPerSession, maxEventsPerSession),
        Pick(SessionTimeout in response.setAttributes, response.sessionTimeoutInMilliseconds, sessionTimeoutInMilliseconds),
        Pick(SendInterval in response.setAttributes, response.sendIntervalInMilliseconds, sendIntervalInMilliseconds),
        Pick(VisitStoreVersion in response.setAttributes, response.visitStoreVersion, visitStoreVersion),
        Pick(IsCapture in response.setAttributes, response.isCapture, isCapture),
        Pick(IsCaptureCrashes in response.setAttributes, response.isCaptureCrashes, isCaptureCrashes),
        Pick(IsCaptureErrors in response.setAttributes, response.isCaptureErrors, isCaptureErrors),
        Pick(Multiplicity in response.setAttributes, response.multiplicity, multiplicity),
        Pick(ServerId in response.setAttributes, response.serverId, serverId),
        Pick(Timestamp in response.setAttributes, response.timestampInMilliseconds, timestampInMilliseconds))
    }
  }

  /** The overlay's value when `overridden` holds, the base value otherwise. */
  function Pick<T>(overridden: bool, overlay: T, base: T): T {
    if overridden then overlay else base
  }

  /**
   * What merging means, attribute by attribute: a field is set in the result
   * iff it is set in either record, and its value is the argument's where the
   * argument sets it and the receiver's otherwise.
   */
  lemma MergeSemantics(receiver: Response, response: Response, a: ResponseAttribute)
    ensures receiver.Merge(response).IsAttributeSet(a) <==> receiver.IsAttributeSet(a) || response.IsAttributeSet(a)
    ensures response.IsAttributeSet(a) ==> receiver.Merge(response).ValueOf(a) == response.ValueOf(a)
    ensures !response.IsAttributeSet(a) ==> receiver.Merge(response).ValueOf(a) == receiver.ValueOf(a)
  {
  }

  /** Two records that agree on every flag and every value are the same record. */
  lemma {:induction false} Extensionality(x: Response, y: Response)
    requires forall a :: x.IsAttributeSet(a) <==> y.IsAttributeSet(a)
    requires forall a :: x.ValueOf(a) == y.ValueOf(a)
    ensures x == y
  {
    assert x.ValueOf(MaxBeaconSize) == y.ValueOf(MaxBeaconSize);
    assert x.ValueOf(MaxSessionDuration) == y.ValueOf(MaxSessionDuration);
    assert x.ValueOf(MaxEventsPerSession) == y.ValueOf(MaxEventsPerSession);
    assert x.ValueOf(SessionTimeout) == y.ValueOf(SessionTimeout);
    assert x.ValueOf(SendInterval) == y.ValueOf(SendInterval);
    assert x.ValueOf(VisitStoreVersion) == y.ValueOf(VisitStoreVersion);
    assert x.ValueOf(IsCapture) == y.ValueOf(IsCapture);
    assert x.ValueOf(IsCaptureCrashes) == y.ValueOf(IsCaptureCrashes);
    assert x.ValueOf(IsCaptureErrors) == y.ValueOf(IsCaptureErrors);
    assert x.ValueOf(Multiplicity) == y.ValueOf(Multiplicity);
    assert x.ValueOf(ServerId) == y.ValueOf(ServerId);
    assert x.ValueOf(Timestamp) == y.ValueOf(Timestamp);
    forall a
      ensures a in x.setAttributes <==> a in y.setAttributes
    {
      assert x.IsAttributeSet(a) <==> y.IsAttributeSet(a);
    }
  }

  /** Merging a record that sets nothing (such as the `UNDEFINED` preset) returns the receiver unchanged. */
  lemma MergeUnsetIsIdentity(base: Response, overlay: Response)
    requires overlay.setAttributes == {}
    ensures base.Merge(overlay) == base
  {
  }

  /** Merging a record into an all-unset base yields the overlay's flags and, on every set field, its values. */
  lemma MergeIntoUnset(base: Response, overlay: Response)
    requires base.setAttributes == {}
    ensures base.Merge(overlay).setAttributes == overlay.setAttributes
    ensures forall a :: overlay.IsAttributeSet(a) ==> base.Merge(overlay).ValueOf(a) == overlay.ValueOf(a)
  {
  }

  lemma MergeIdempotent(r: Response)
    ensures r.Merge(r) == r
  {
  }

  /** Folding responses left to right does not depend on how the chain is bracketed. */
  lemma MergeAssociative(a: Response, b: Response, c: Response)
    ensures a.Merge(b).Merge(c) == a.Merge(b.Merge(c))
  {
  }

  /**
   * `ResponseImpl.Builder`: mutable copies of the twelve values plus the set
   * of attributes that were set.
   */
  class Builder {
    var setAttributes: set<ResponseAttribute>
    var maxBeaconSizeInBytes: Int32
    var maxSessionDurationInMilliseconds: Int32
    var maxEventsPerSession: Int32
    var sessionTimeoutInMilliseconds: Int32
    var sendIntervalInMilliseconds: Int32
    var visitStoreVersion: Int32
    var isCapture: bool
    var isCaptureCrashes: bool
    var isCaptureErrors: bool
    var multiplicity: Int32
    var serverId: Int32
    var timestampInMilliseconds: Int64

    /**
     * `new Builder(defaults)`: copy every value, then walk all attributes and
     * flag those `defaults` has set.
     */
    constructor (defaults: Response)
      ensures Build() == defaults
    {
      maxBeaconSizeInBytes := defaults.maxBeaconSizeInBytes;
      maxSessionDurationInMilliseconds := defaults.maxSessionDurationInMilliseconds;
      maxEventsPerSession := defaults.maxEventsPerSession;
      sessionTimeoutInMilliseconds := defaults.sessionTimeoutInMilliseconds;
      sendIntervalInMilliseconds := defaults.sendIntervalInMilliseconds;
      visitStoreVersion := defaults.visitStoreVersion;
      isCapture := defaults.isCapture;
      isCaptureCrashes := defaults.isCaptureCrashes;
      isCaptureErrors := defaults.isCaptureErrors;
      multiplicity := defaults.multiplicity;
      serverId := defaults.serverId;
      timestampInMilliseconds := defaults.timestampInMilliseconds;
      setAttributes := {};
      new;
      var i := 0;
      while i < |AllAttributes|
        invariant 0 <= i <= |AllAttributes|
        invariant setAttributes == set a | a in AllAttributes[..i] && defaults.IsAttributeSet(a)
        modifies this`setAttributes
      {
        var attribute := AllAttributes[i];
        if defaults.IsAttributeSet(attribute) {
          SetAttribute(attribute);
        }
        i := i + 1;
      }
      assert AllAttributes[..i] == AllAttributes;
      forall a ensures a in setAttributes <==> a in defaults.setAttributes {
        AllAttributesListed(a);
      }
    }

    /** `build()`: the response holding this builder's values and flags. */
    function Build(): (r: Response)
      reads this
      ensures forall a :: r.IsAttributeSet(a) <==> a in setAttributes
    {
      Response(setAttributes, maxBeaconSizeInBytes, maxSessionDurationInMilliseconds,
        maxEventsPerSession, sessionTimeoutInMilliseconds, sendIntervalInMilliseconds,
        visitStoreVersion, isCapture, isCaptureCrashes, isCaptureErrors, multiplicity,
        serverId, timestampInMilliseconds)
    }

    method SetAttribute(attribute: ResponseAttribute)
      modifies this`setAttributes
      ensures setAttributes == old(setAttributes) + {attribute}
    {
      setAttributes := setAttributes + {attribute};
    }

    method WithMaxBeaconSizeInBytes(value: Int32)
      modifies this
      ensures Build() == old(Build()).(maxBeaconSizeInBytes := value, setAttributes := old(setAttributes) + {MaxBeaconSize})
    {
      maxBeaconSizeInBytes := value;
      SetAttribute(MaxBeaconSize);
    }

    method WithMaxSessionDurationInMilliseconds(value: Int32)
      modifies this
      ensures Build() == old(Build()).(maxSessionDurationInMilliseconds := value, setAttributes := old(setAttributes) + {MaxSessionDuration})
    {
      maxSessionDurationInMilliseconds := value;
      SetAttribute(MaxSessionDuration);
    }

    method WithMaxEventsPerSession(value: Int32)
      modifies this
      ensures Build() == old(Build()).(maxEventsPerSession := value, setAttributes := old(setAttributes) + {MaxEventsPerSession})
    {
      maxEventsPerSession := value;
      SetAttribute(MaxEventsPerSession);
    }

    method WithSessionTimeoutInMilliseconds(value: Int32)
      modifies this
      ensures Build() == old(Build()).(sessionTimeoutInMilliseconds := value, setAttributes := old(setAttributes) + {SessionTimeout})
    {
      sessionTimeoutInMilliseconds := value;
      SetAttribute(SessionTimeout);
    }

    method WithSendIntervalInMilliseconds(value: Int32)
      modifies this
      ensures Build() == old(Build()).(sendIntervalInMilliseconds := value, setAttributes := old(setAttributes) + {SendInterval})
    {
      sendIntervalInMilliseconds := value;
      SetAttribute(SendInterval);
    }

    method WithVisitStoreVersion(value: Int32)
      modifies this
      ensures Build() == old(Build()).(visitStoreVersion := value, setAttributes := old(setAttributes) + {VisitStoreVersion})
    {
      visitStoreVersion := value;
      SetAttribute(VisitStoreVersion);
    }

    method WithCapture(value: bool)
      modifies this
      ensures Build() == old(Build()).(isCapture := value, setAttributes := old(setAttributes) + {IsCapture})
    {
      isCapture := value;
      SetAttribute(IsCapture);
    }

    method WithCaptureCrashes(value: bool)
      modifies this
      ensures Build() == old(Build()).(isCaptureCrashes := value, setAttributes := old(setAttributes) + {IsCaptureCrashes})
    {
      isCaptureCrashes := value;
      SetAttribute(IsCaptureCrashes);
    }

    method WithCaptureErrors(value: bool)
      modifies this
      ensures Build() == old(Build()).(isCaptureErrors := value, setAttributes := old(setAttributes) + {IsCaptureErrors})
    {
      isCaptureErrors := value;
      SetAttribute(IsCaptureErrors);
    }

    method WithMultiplicity(value: Int32)
      modifies this
      ensures Build() == old(Build()).(multiplicity := value, setAttributes := old(setAttributes) + {Multiplicity})
    {
      multiplicity := value;
      SetAttribute(Multiplicity);
    }

    method WithServerId(value: Int32)
      modifies this
      ensures Build() == old(Build()).(serverId := value, setAttributes := old(setAttributes) + {ServerId})
    {
      serverId := value;
      SetAttribute(ServerId);
    }

    method WithTimestampInMilliseconds(value: Int64)
      modifies this
      ensures Build() == old(Build()).(timestampInMilliseconds := value, setAttributes := old(setAttributes) + {Timestamp})
    {
      timestampInMilliseconds := value;
      SetAttribute(Timestamp);
    }
  }

  /*
   * The twelve `applyX` steps of `merge`: each copies one value from
   * `response` into the builder, and flags it, only when `response` has that
   * attribute set.
   */

  method ApplyBeaconSize(builder: Builder, response: Response)
    modifies builder
    ensures builder.Build() == old(builder.Build()).(
      maxBeaconSizeInBytes := Pick(response.IsAttributeSet(MaxBeaconSize), response.maxBeaconSizeInBytes, old(builder.maxBeaconSizeInBytes)),
      setAttributes := old(builder.setAttributes) + response.setAttributes * {MaxBeaconSize})
  {
    if !response.IsAttributeSet(MaxBeaconSize) {
      return;
    }
    builder.WithMaxBeaconSizeInBytes(response.maxBeaconSizeInBytes);
  }

  method ApplySessionDuration(builder: Builder, response: Response)
    modifies builder
    ensures builder.Build() == old(builder.Build()).(
      maxSessionDurationInMilliseconds := Pick(response.IsAttributeSet(MaxSessionDuration), response.maxSessionDurationInMilliseconds, old(builder.maxSessionDurationInMilliseconds)),
      setAttributes := old(builder.setAttributes) + response.setAttributes * {MaxSessionDuration})
  {
    if !response.IsAttributeSet(MaxSessionDuration) {
      return;
    }
    builder.WithMaxSessionDurationInMilliseconds(response.maxSessionDurationInMilliseconds);
  }

  method ApplyEventsPerSession(builder: Builder, response: Response)
    modifies builder
    ensures builder.Build() == old(builder.Build()).(
      maxEventsPerSession := Pick(response.IsAttributeSet(MaxEventsPerSession), response.maxEventsPerSession, old(builder.maxEventsPerSession)),
      setAttributes := old(builder.setAttributes) + response.setAttributes * {MaxEventsPerSession})
  {
    if !response.IsAttributeSet(MaxEventsPerSession) {
      return;
    }
    builder.WithMaxEventsPerSession(response.maxEventsPerSession);
  }

  method ApplySessionTimeout(builder: Builder, response: Response)
    modifies builder
    ensures builder.Build() == old(builder.Build()).(
      sessionTimeoutInMilliseconds := Pick(response.IsAttributeSet(SessionTimeout), response.sessionTimeoutInMilliseconds, old(builder.sessionTimeoutInMilliseconds)),
      setAttributes := old(builder.setAttributes) + response.setAttributes * {SessionTimeout})
  {
    if !response.IsAttributeSet(SessionTimeout) {
      return;
    }
    builder.WithSessionTimeoutInMilliseconds(response.sessionTimeoutInMilliseconds);
  }

  method ApplySendInterval(builder: Builder, response: Response)
    modifies builder
    ensures builder.Build() == old(builder.Build()).(
      sendIntervalInMilliseconds := Pick(response.IsAttributeSet(SendInterval), response.sendIntervalInMilliseconds, old(builder.sendIntervalInMilliseconds)),
      setAttributes := old(builder.setAttributes) + response.setAttributes * {SendInterval})
  {
    if !response.IsAttributeSet(SendInterval) {
      return;
    }
    builder.WithSendIntervalInMilliseconds(response.sendIntervalInMilliseconds);
  }

  method ApplyVisitStoreVersion(builder: Builder, response: Response)
    modifies builder
    ensures builder.Build() == old(builder.Build()).(
      visitStoreVersion := Pick(response.IsAttributeSet(VisitStoreVersion), response.visitStoreVersion, old(builder.visitStoreVersion)),
      setAttributes := old(builder.setAttributes) + response.setAttributes * {VisitStoreVersion})
  {
    if !response.IsAttributeSet(VisitStoreVersion) {
      return;
    }
    builder.WithVisitStoreVersion(response.visitStoreVersion);
  }

  method ApplyCapture(builder: Builder, response: Response)
    modifies builder
    ensures builder.Build() == old(builder.Build()).(
      isCapture := Pick(response.IsAttributeSet(IsCapture), response.isCapture, old(builder.isCapture)),
      setAttributes := old(builder.setAttributes) + response.setAttributes * {IsCapture})
  {
    if !response.IsAttributeSet(IsCapture) {
      return;
    }
    builder.WithCapture(response.isCapture);
  }

  method ApplyCaptureCrashes(builder: Builder, response: Response)
    modifies builder
    ensures builder.Build() == old(builder.Build()).(
      isCaptureCrashes := Pick(response.IsAttributeSet(IsCaptureCrashes), response.isCaptureCrashes, old(builder.isCaptureCrashes)),
      setAttributes := old(builder.setAttributes) + response.setAttributes * {IsCaptureCrashes})
  {
    if !response.IsAttributeSet(IsCaptureCrashes) {
      return;
    }
    builder.WithCaptureCrashes(response.isCaptureCrashes);
  }

  method ApplyCaptureErrors(builder: Builder, response: Response)
    modifies builder
    ensures builder.Build() == old(builder.Build()).(
      isCaptureErrors := Pick(response.IsAttributeSet(IsCaptureErrors), response.isCaptureErrors, old(builder.isCaptureErrors)),
      setAttributes := old(builder.setAttributes) + response.setAttributes * {IsCaptureErrors})
  {
    if !response.IsAttributeSet(IsCaptureErrors) {
      return;
    }
    builder.WithCaptureErrors(response.isCaptureErrors);
  }

  method ApplyMultiplicity(builder: Builder, response: Response)
    modifies builder
    ensures builder.Build() == old(builder.Build()).(
      multiplicity := Pick(response.IsAttributeSet(Multiplicity), response.multiplicity, old(builder.multiplicity)),
      setAttributes := old(builder.setAttributes) + response.setAttributes * {Multiplicity})
  {
    if !response.IsAttributeSet(Multiplicity) {
      return;
    }
    builder.WithMultiplicity(response.multiplicity);
  }

  method ApplyServerId(builder: Builder, response: Response)
    modifies builder
    ensures builder.Build() == old(builder.Build()).(
      serverId := Pick(response.IsAttributeSet(ServerId), response.serverId, old(builder.serverId)),
      setAttributes := old(builder.setAttributes) + response.setAttributes * {ServerId})
  {
    if !response.IsAttributeSet(ServerId) {
      return;
    }
    builder.WithServerId(response.serverId);
  }

  method ApplyTimestamp(builder: Builder, response: Response)
    modifies builder
    ensures builder.Build() == old(builder.Build()).(
      timestampInMilliseconds := Pick(response.IsAttributeSet(Timestamp), response.timestampInMilliseconds, old(builder.timestampInMilliseconds)),
      setAttributes := old(builder.setAttributes) + response.setAttributes * {Timestamp})
  {
    if !response.IsAttributeSet(Timestamp) {
      return;
    }
    builder.WithTimestampInMilliseconds(response.timestampInMilliseconds);
  }

  /** The first six `applyX` steps of `merge`. */
  method ApplyLimits(builder: Builder, response: Response)
    modifies builder
    ensures builder.Build() == old(builder.Build()).(
      maxBeaconSizeInBytes := Pick(MaxBeaconSize in response.setAttributes, response.maxBeaconSizeInBytes, old(builder.maxBeaconSizeInBytes)),
      maxSessionDurationInMilliseconds := Pick(MaxSessionDuration in response.setAttributes, response.maxSessionDurationInMilliseconds, old(builder.maxSessionDurationInMilliseconds)),
      maxEventsPerSession := Pick(MaxEventsPerSession in response.setAttributes, response.maxEventsPerSession, old(builder.maxEventsPerSession)),
      sessionTimeoutInMilliseconds := Pick(SessionTimeout in response.setAttributes, response.sessionTimeoutInMilliseconds, old(builder.sessionTimeoutInMilliseconds)),
      sendIntervalInMilliseconds := Pick(SendInterval in response.setAttributes, response.sendIntervalInMilliseconds, old(builder.sendIntervalInMilliseconds)),
      visitStoreVersion := Pick(VisitStoreVersion in response.setAttributes, response.visitStoreVersion, old(builder.visitStoreVersion)),
      setAttributes := old(builder.setAttributes) + response.setAttributes
        * {MaxBeaconSize, MaxSessionDuration, MaxEventsPerSession, SessionTimeout, SendInterval, VisitStoreVersion})
  {
    ApplyBeaconSize(builder, response);
    ApplySessionDuration(builder, response);
    ApplyEventsPerSession(builder, response);
    ApplySessionTimeout(builder, response);
    ApplySendInterval(builder, response);
    ApplyVisitStoreVersion(builder, response);
  }

  /** The last six `applyX` steps of `merge`. */
  method ApplyFlags(builder: Builder, response: Response)
    modifies builder
    ensures builder.Build() == old(builder.Build()).(
      isCapture := Pick(IsCapture in response.setAttributes, response.isCapture, old(builder.isCapture)),
      isCaptureCrashes := Pick(IsCaptureCrashes in response.setAttributes, response.isCaptureCrashes, old(builder.isCaptureCrashes)),
      isCaptureErrors := Pick(IsCaptureErrors in response.setAttributes, response.isCaptureErrors, old(builder.isCaptureErrors)),
      multiplicity := Pick(Multiplicity in response.setAttributes, response.multiplicity, old(builder.multiplicity)),
      serverId := Pick(ServerId in response.setAttributes, response.serverId, old(builder.serverId)),
      timestampInMilliseconds := Pick(Timestamp in response.setAttributes, response.timestampInMilliseconds, old(builder.timestampInMilliseconds)),
      setAttributes := old(builder.setAttributes) + response.setAttributes
        * {IsCapture, IsCaptureCrashes, IsCaptureErrors, Multiplicity, ServerId, Timestamp})
  {
    ApplyCapture(builder, response);
    ApplyCaptureCrashes(builder, response);
    ApplyCaptureErrors(builder, response);
    ApplyMultiplicity(builder, response);
    ApplyServerId(builder, response);
    ApplyTimestamp(builder, response);
  }

  /**
   * `merge` as the source runs it: one builder copied from the receiver and
   * threaded through the twelve `applyX` steps.
   */
  method MergeThroughBuilder(receiver: Response, response: Response) returns (r: Response)
    ensures r == receiver.Merge(response)
  {
    var builder := new Builder(receiver);
    ApplyLimits(builder, response);
    ApplyFlags(builder, response);
    r := builder.Build();
    forall a
      ensures a in r.setAttributes <==> a in receiver.setAttributes + response.setAttributes
    {
      AllAttributesListed(a);
    }
    assert r.setAttributes == receiver.Merge(response).setAttributes;
  }
}

=== FILE: status_responses.dfy ===
/**
 * `StatusResponse`: the legacy key-value status reply of the collector.
 * The body is `key=value` segments joined by `&`; recognised keys fill the
 * fields below, numbers are Java `int`s, send interval and beacon size are
 * converted from seconds and kilobytes with Java's 32-bit wrap-around, and a
 * retry delay is read from a response header.
 */
module StatusResponses {
  import opened Wrappers
  import opened JavaInts
  import opened Strings

  /**
   * The protocol's constant names: the eight `RESPONSE_KEY_*` body keys, the
   * retry-after header name and `DEFAULT_RETRY_AFTER_IN_MILLISECONDS`.
   */
  datatype ProtocolConstants = ProtocolConstants(
    keyCapture: string,
    keySendInterval: string,
    keyMonitorName: string,
    keyServerId: string,
    keyMaxBeaconSize: string,
    keyCaptureErrors: string,
    keyCaptureCrashes: string,
    keyMultiplicity: string,
    keyRetryAfter: string,
    defaultRetryAfterInMilliseconds: Int64)
  {
    function BodyKeys(): seq<string> {
      [keyCapture, keySendInterval, keyMonitorName, keyServerId,
       keyMaxBeaconSize, keyCaptureErrors, keyCaptureCrashes, keyMultiplicity]
    }

    /** The body keys are pairwise distinct and can be written in a body. */
    predicate Valid() {
      && (forall i, j :: 0 <= i < j < |BodyKeys()| ==> BodyKeys()[i] != BodyKeys()[j])
      && (forall i :: 0 <= i < |BodyKeys()| ==> '&' !in BodyKeys()[i] && '=' !in BodyKeys()[i])
    }

    /** The keys whose values are parsed with `Integer.parseInt` (all but the monitor name). */
    predicate IsIntegerKey(key: string) {
      key in {keyCapture, keySendInterval, keyServerId, keyMaxBeaconSize,
              keyCaptureErrors, keyCaptureCrashes, keyMultiplicity}
    }
  }

  datatype ParseError =
    | IllegalArgument(message: string)
    | NumberFormat(input: string)

  const EvenTokensMessage: string := "Invalid response; even number of tokens expected."

  datatype KeyValuePair = KeyValuePair(key: string, value: string)

  /** A pair that can be written as `key=value` inside a body and read back. */
  predicate WritablePair(p: KeyValuePair) {
    '&' !in p.key && '=' !in p.key && '&' !in p.value && '=' !in p.value
  }

  predicate AllWritable(pairs: seq<KeyValuePair>) {
    forall i :: 0 <= i < |pairs| ==> WritablePair(pairs[i])
  }

  predicate KeyPresent(pairs: seq<KeyValuePair>, key: string) {
    exists i :: 0 <= i < |pairs| && pairs[i].key == key
  }

  function Segment(p: KeyValuePair): string {
    p.key + "=" + p.value
  }

  function Segments(pairs: seq<KeyValuePair>): (segments: seq<string>)
    ensures |segments| == |pairs|
    ensures forall i :: 0 <= i < |pairs| ==> segments[i] == Segment(pairs[i])
  {
    if |pairs| == 0 then [] else [Segment(pairs[0])] + Segments(pairs[1..])
  }

  /** The body that lists `pairs` in order: the partner of ParseResponseKeyValuePair. */
  function Render(pairs: seq<KeyValuePair>): string {
    Join(Segments(pairs), '&')
  }

  /**
   * A segment that splits on `=` into exactly two tokens, a key and a value:
   * it holds exactly one `=`.
   */
  predicate IsPairSegment(segment: string) {
    Occurrences(segment, '=') == 1
  }

  /** A pair segment is exactly one that splits on `=` into two tokens. */
  lemma PairSegmentIsTwoTokens(segment: string)
    ensures IsPairSegment(segment) <==> |SplitOn(segment, '=')| == 2
  {
    SplitOnCount(segment, '=');
  }

  /** One `&`-separated segment: the key before its only `=`, the value after it. */
  function ParseSegment(segment: string): (r: Result<KeyValuePair, ParseError>)
    ensures r.Failure? <==> !IsPairSegment(segment)
    ensures r.Failure? ==> r.error == IllegalArgument(EvenTokensMessage)
    ensures r.Success? ==> Segment(r.value) == segment && '=' !in r.value.key && '=' !in r.value.value
  {
    if !IsPairSegment(segment) then Failure(IllegalArgument(EvenTokensMessage))
    else
      var key := PrefixBefore(segment, '=');
      var value := segment[|key| + 1..];
      assert segment == key + "=" + value;
      OccurrencesAppend(key + "=", value, '=');
      OccurrencesAppend(key, "=", '=');
      Success(KeyValuePair(key, value))
  }

  /** Some segment does not hold exactly one `=`: the body cannot be read as pairs. */
  predicate SomeSegmentNotPair(segments: seq<string>) {
    exists i :: 0 <= i < |segments| && !IsPairSegment(segments[i])
  }

  lemma SomeSegmentNotPairInTail(segments: seq<string>)
    requires |segments| > 0
    ensures SomeSegmentNotPair(segments[1..]) ==> SomeSegmentNotPair(segments)
  {
    if SomeSegmentNotPair(segments[1..]) {
      var i :| 0 <= i < |segments| - 1 && !IsPairSegment(segments[1..][i]);
      assert segments[i + 1] == segments[1..][i];
    }
  }

  function ParseSegments(segments: seq<string>): (r: Result<seq<KeyValuePair>, ParseError>)
    ensures r.Failure? <==> SomeSegmentNotPair(segments)
    ensures r.Failure? ==> r.error == IllegalArgument(EvenTokensMessage)
    ensures r.Success? ==> Segments(r.value) == segments
    ensures r.Success? ==> forall i :: 0 <= i < |r.value| ==> '=' !in r.value[i].key && '=' !in r.value[i].value
  {
    if |segments| == 0 then Success([])
    else
      var head := ParseSegment(segments[0]);
      var tail := ParseSegments(segments[1..]);
      if head.Failure? then
        assert !IsPairSegment(segments[0]);
        Failure(head.error)
      else if tail.Failure? then
        SomeSegmentNotPairInTail(segments);
        Failure(tail.error)
      else
        var pairs := [head.value] + tail.value;
        assert forall i :: 1 <= i < |segments| ==> segments[i] == segments[1..][i - 1];
        assert forall i :: 1 <= i < |pairs| ==> pairs[i] == tail.value[i - 1];
        Success(pairs)
  }

  /**
   * `parseResponseKeyValuePair(response)`: the empty body is the empty list;
   * otherwise every `&`-separated segment must hold exactly one `=`, or the whole body
   * is rejected with IllegalArgument. On success the pairs, written back out,
   * are exactly the body.
   */
  function ParseResponseKeyValuePair(response: string): (r: Result<seq<KeyValuePair>, ParseError>)
    ensures response == "" ==> r == Success([])
    ensures r.Failure? <==> response != "" && SomeSegmentNotPair(SplitOn(response, '&'))
    ensures r.Failure? ==> r.error == IllegalArgument(EvenTokensMessage)
    ensures r.Success? ==> Render(r.value) == response && AllWritable(r.value)
  {
    if response == "" then Success([])
    else
      var pairs :- ParseSegments(SplitOn(response, '&'));
      assert AllWritable(pairs) by {
        forall i | 0 <= i < |pairs|
          ensures WritablePair(pairs[i])
        {
          assert Segments(pairs)[i] == Segment(pairs[i]);
          assert '&' !in Segment(pairs[i]);
        }
      }
      Success(pairs)
  }

  /** Round trip: listing writable pairs in a body and parsing it gives them back. */
  lemma {:induction false} ParseRenderRoundTrip(pairs: seq<KeyValuePair>)
    requires AllWritable(pairs)
    ensures ParseResponseKeyValuePair(Render(pairs)) == Success(pairs)
  {
    if |pairs| > 0 {
      var segments := Segments(pairs);
      assert segments[0] == Segment(pairs[0]);
      assert Render(pairs) != "" by {
        assert |Render(pairs)| >= |segments[0]| by {
          JoinLength(segments, '&');
        }
      }
      SplitOnJoin(segments, '&');
      SegmentsParse(pairs);
    }
  }

  lemma {:induction false} JoinLength(parts: seq<string>, sep: char)
    requires |parts| > 0
    ensures |Join(parts, sep)| >= |parts[0]|
  {
  }

  lemma {:induction false} SegmentsParse(pairs: seq<KeyValuePair>)
    requires AllWritable(pairs)
    ensures ParseSegments(Segments(pairs)) == Success(pairs)
    decreases |pairs|
  {
    if |pairs| > 0 {
      var segments := Segments(pairs);
      SegmentParses(pairs[0]);
      assert segments[1..] == Segments(pairs[1..]);
      SegmentsParse(pairs[1..]);
      ParseSegmentsCons(segments, pairs[0], pairs[1..]);
      assert [pairs[0]] + pairs[1..] == pairs;
    }
  }

  lemma ParseSegmentsCons(segments: seq<string>, head: KeyValuePair, tail: seq<KeyValuePair>)
    requires |segments| > 0
    requires ParseSegment(segments[0]) == Success(head) && ParseSegments(segments[1..]) == Success(tail)
    ensures ParseSegments(segments) == Success([head] + tail)
  {
  }

  lemma SegmentParses(p: KeyValuePair)
    requires '=' !in p.key && '=' !in p.value
    ensures ParseSegment(Segment(p)) == Success(p)
  {
    PrefixBeforeHead(p.key, p.value, '=');
    assert Segment(p) == p.key + ['='] + p.value;
    OccurrencesAppend(p.key + "=", p.value, '=');
    OccurrencesAppend(p.key, "=", '=');
  }

  // ---------------------------------------------------------------------
  // The decoded response
  // ---------------------------------------------------------------------

  datatype StatusResponse = StatusResponse(
    responseCode: Int32,
    headers: map<string, seq<string>>,
    capture: bool,
    sendInterval: Int32,
    monitorName: Option<string>,
    serverID: Int32,
    maxBeaconSize: Int32,
    captureErrors: bool,
    captureCrashes: bool,
    multiplicity: Int32)
  {
    /** `isErroneousResponse()`: the collector answered with a client or server error. */
    predicate IsErroneousResponse() {
      responseCode >= 400
    }
  }

  /** The field values before any key is read. */
  function Defaults(responseCode: Int32, headers: map<string, seq<string>>): StatusResponse {
    StatusResponse(responseCode, headers, true, -1, None, -1, -1, true, true, 1)
  }

  /** `Integer.parseInt(value)`, with its exception. */
  function ParseIntValue(value: string): (r: Result<Int32, ParseError>)
    ensures r.Success? <==> ParseInt32(value).Some?
    ensures r.Success? ==> r.value == ParseInt32(value).value
    ensures r.Failure? ==> r.error == NumberFormat(value)
  {
    match ParseInt32(value)
    case Some(n) => Success(n)
    case None => Failure(NumberFormat(value))
  }

  /** How one pair changes the response; keys the protocol does not know are ignored. */
  function DecodePair(r: StatusResponse, kv: KeyValuePair, k: ProtocolConstants): (d: Result<StatusResponse, ParseError>)
    ensures d.Success? ==> d.value.responseCode == r.responseCode && d.value.headers == r.headers
    ensures d.Failure? ==> && k.IsIntegerKey(kv.key) && ParseInt32(kv.value).None?
                           && d.error == NumberFormat(kv.value)
    ensures kv.key !in k.BodyKeys() ==> d == Success(r)
  {
    if kv.key == k.keyCapture then
      var n :- ParseIntValue(kv.value);
      Success(r.(capture := n == 1))
    else if kv.key == k.keySendInterval then
      var n :- ParseIntValue(kv.value);
      Success(r.(sendInterval := Wrap32(n * 1000)))
    else if kv.key == k.keyMonitorName then
      Success(r.(monitorName := Some(kv.value)))
    else if kv.key == k.keyServerId then
      var n :- ParseIntValue(kv.value);
      Success(r.(serverID := n))
    else if kv.key == k.keyMaxBeaconSize then
      var n :- ParseIntValue(kv.value);
      Success(r.(maxBeaconSize := Wrap32(n * 1024)))
    else if kv.key == k.keyCaptureErrors then
      var n :- ParseIntValue(kv.value);
      Success(r.(captureErrors := n != 0))
    else if kv.key == k.keyCaptureCrashes then
      var n :- ParseIntValue(kv.value);
      Success(r.(captureCrashes := n != 0))
    else if kv.key == k.keyMultiplicity then
      var n :- ParseIntValue(kv.value);
      Success(r.(multiplicity := n))
    else
      Success(r)
  }

  /** The pairs applied in body order, so a later repetition of a key wins. */
  function DecodePairs(r: StatusResponse, pairs: seq<KeyValuePair>, k: ProtocolConstants): (d: Result<StatusResponse, ParseError>)
    ensures d.Success? ==> d.value.responseCode == r.responseCode && d.value.headers == r.headers
    ensures d.Failure? ==> exists i :: && 0 <= i < |pairs| && k.IsIntegerKey(pairs[i].key)
                                       && ParseInt32(pairs[i].value).None? && d.error == NumberFormat(pairs[i].value)
    ensures (forall i :: 0 <= i < |pairs| ==> pairs[i].key !in k.BodyKeys()) ==> d == Success(r)
    decreases |pairs|
  {
    if |pairs| == 0 then Success(r)
    else
      var next :- DecodePair(r, pairs[0], k);
      DecodePairs(next, pairs[1..], k)
  }

  /**
   * `new StatusResponse(logger, response, responseCode, headers)`: a null body
   * leaves every default in place; otherwise the body is split into pairs
   * and decoded, and either step may throw.
   */
  function ParseStatusResponse(body: Option<string>, responseCode: Int32, headers: map<string, seq<string>>,
                               k: ProtocolConstants): (r: Result<StatusResponse, ParseError>)
    ensures r.Success? ==> r.value.responseCode == responseCode && r.value.headers == headers
  {
    match body
    case None => Success(Defaults(responseCode, headers))
    case Some(text) =>
      var pairs :- ParseResponseKeyValuePair(text);
      DecodePairs(Defaults(responseCode, headers), pairs, k)
  }

  /** `getRetryAfterInMilliseconds()`: one parsable header value in seconds, else the default. */
  function RetryAfterInMilliseconds(r: StatusResponse, k: ProtocolConstants): (ms: Int64)
    ensures ms != k.defaultRetryAfterInMilliseconds ==>
      k.keyRetryAfter in r.headers && |r.headers[k.keyRetryAfter]| == 1 &&
      ParseInt32(r.headers[k.keyRetryAfter][0]).Some? && ms == ParseInt32(r.headers[k.keyRetryAfter][0]).value * 1000
  {
    if k.keyRetryAfter !in r.headers then k.defaultRetryAfterInMilliseconds
    else
      var values := r.headers[k.keyRetryAfter];
      if |values| != 1 then k.defaultRetryAfterInMilliseconds
      else
        match ParseInt32(values[0])
        case None => k.defaultRetryAfterInMilliseconds
        case Some(seconds) => seconds * 1000
  }

  // ---------------------------------------------------------------------
  // Properties
  // ---------------------------------------------------------------------

  lemma KeysDistinct(k: ProtocolConstants)
    requires k.Valid()
    ensures k.keyCapture != k.keySendInterval && k.keyCapture != k.keyMonitorName
    ensures k.keyCapture != k.keyServerId && k.keyCapture != k.keyMaxBeaconSize
    ensures k.keyCapture != k.keyCaptureErrors && k.keyCapture != k.keyCaptureCrashes
    ensures k.keyCapture != k.keyMultiplicity
    ensures k.keySendInterval != k.keyMonitorName && k.keySendInterval != k.keyServerId
    ensures k.keySendInterval != k.keyMaxBeaconSize && k.keySendInterval != k.keyCaptureErrors
    ensures k.keySendInterval != k.keyCaptureCrashes && k.keySendInterval != k.keyMultiplicity
    ensures k.keyMonitorName != k.keyServerId && k.keyMonitorName != k.keyMaxBeaconSize
    ensures k.keyMonitorName != k.keyCaptureErrors && k.keyMonitorName != k.keyCaptureCrashes
    ensures k.keyMonitorName != k.keyMultiplicity
    ensures k.keyServerId != k.keyMaxBeaconSize && k.keyServerId != k.keyCaptureErrors
    ensures k.keyServerId != k.keyCaptureCrashes && k.keyServerId != k.keyMultiplicity
    ensures k.keyMaxBeaconSize != k.keyCaptureErrors && k.keyMaxBeaconSize != k.keyCaptureCrashes
    ensures k.keyMaxBeaconSize != k.keyMultiplicity
    ensures k.keyCaptureErrors != k.keyCaptureCrashes && k.keyCaptureErrors != k.keyMultiplicity
    ensures k.keyCaptureCrashes != k.keyMultiplicity
  {
    var ks := k.BodyKeys();
    assert ks[0] == k.keyCapture && ks[1] == k.keySendInterval && ks[2] == k.keyMonitorName;
    assert ks[3] == k.keyServerId && ks[4] == k.keyMaxBeaconSize && ks[5] == k.keyCaptureErrors;
    assert ks[6] == k.keyCaptureCrashes && ks[7] == k.keyMultiplicity;
  }

  /** A null or empty body does not throw and leaves every documented default in place. */
  lemma EmptyBodyGivesDefaults(responseCode: Int32, headers: map<string, seq<string>>, k: ProtocolConstants)
    ensures ParseStatusResponse(None, responseCode, headers, k) == Success(Defaults(responseCode, headers))
    ensures ParseStatusResponse(Some(""), responseCode, headers, k) == Success(Defaults(responseCode, headers))
    ensures var d := Defaults(responseCode, headers);
      && d.capture && d.captureCrashes && d.captureErrors
      && d.sendInterval == -1 && d.serverID == -1 && d.maxBeaconSize == -1
      && d.monitorName == None && d.multiplicity == 1
  {
  }

  /** Whatever the body, a parsed response keeps its code and is erroneous exactly from 400 on. */
  lemma ErroneousFromCode400(body: Option<string>, responseCode: Int32, headers: map<string, seq<string>>, k: ProtocolConstants)
    requires ParseStatusResponse(body, responseCode, headers, k).Success?
    ensures ParseStatusResponse(body, responseCode, headers, k).value.responseCode == responseCode
    ensures ParseStatusResponse(body, responseCode, headers, k).value.IsErroneousResponse() <==> responseCode >= 400
  {
  }

  /** A body of one `key=value` segment has the effect of that single pair on the defaults. */
  lemma {:induction false} SinglePairBody(key: string, value: string, responseCode: Int32,
                                          headers: map<string, seq<string>>, k: ProtocolConstants)
    requires WritablePair(KeyValuePair(key, value))
    ensures ParseStatusResponse(Some(key + "=" + value), responseCode, headers, k)
         == DecodePair(Defaults(responseCode, headers), KeyValuePair(key, value), k)
  {
    var pairs := [KeyValuePair(key, value)];
    assert Render(pairs) == key + "=" + value;
    ParseRenderRoundTrip(pairs);
    var d := Defaults(responseCode, headers);
    var r := DecodePair(d, pairs[0], k);
    if r.Success? {
      assert DecodePairs(r.value, pairs[1..], k) == Success(r.value);
    }
  }

  lemma DecimalHasNoSeparator(n: int)
    ensures '&' !in IntToDecimal(n) && '=' !in IntToDecimal(n)
  {
    var s := IntToDecimal(n);
    if n < 0 {
      assert s == "-" + NatToDigits(-n);
    }
  }

  /** The value of every integer key: a numeral in the `int` range is read, one outside it throws. */
  lemma {:induction false} IntegerPairBody(key: string, n: int, responseCode: Int32,
                                           headers: map<string, seq<string>>, k: ProtocolConstants)
    requires k.Valid() && k.IsIntegerKey(key)
    ensures InInt32(n) ==>
              ParseStatusResponse(Some(key + "=" + IntToDecimal(n)), responseCode, headers, k)
              == DecodePair(Defaults(responseCode, headers), KeyValuePair(key, IntToDecimal(n)), k)
    ensures !InInt32(n) ==>
              ParseStatusResponse(Some(key + "=" + IntToDecimal(n)), responseCode, headers, k)
              == Failure(NumberFormat(IntToDecimal(n)))
  {
    KeysDistinct(k);
    DecimalHasNoSeparator(n);
    DecimalRoundTrip(n);
    var i := k.BodyKeys();
    assert '&' !in key && '=' !in key by {
      assert key in i;
    }
    SinglePairBody(key, IntToDecimal(n), responseCode, headers, k);
  }

  /** `capture` is on only for the value 1: 2, 0 and -2 all switch it off. */
  lemma CaptureOnlyForOne(n: int, responseCode: Int32, headers: map<string, seq<string>>, k: ProtocolConstants)
    requires k.Valid() && InInt32(n)
    ensures ParseStatusResponse(Some(k.keyCapture + "=" + IntToDecimal(n)), responseCode, headers, k)
         == Success(Defaults(responseCode, headers).(capture := n == 1))
  {
    IntegerPairBody(k.keyCapture, n, responseCode, headers, k);
    DecimalRoundTrip(n);
  }

  /** The send interval arrives in seconds and is kept in milliseconds, wrapped to a Java `int`. */
  lemma SendIntervalInMilliseconds(n: int, responseCode: Int32, headers: map<string, seq<string>>, k: ProtocolConstants)
    requires k.Valid() && InInt32(n)
    ensures ParseStatusResponse(Some(k.keySendInterval + "=" + IntToDecimal(n)), responseCode, headers, k)
         == Success(Defaults(responseCode, headers).(sendInterval := Wrap32(n * 1000)))
  {
    KeysDistinct(k);
    IntegerPairBody(k.keySendInterval, n, responseCode, headers, k);
    DecimalRoundTrip(n);
  }

  /** The beacon size arrives in kilobytes and is kept in bytes, wrapped to a Java `int`. */
  lemma MaxBeaconSizeInBytes(n: int, responseCode: Int32, headers: map<string, seq<string>>, k: ProtocolConstants)
    requires k.Valid() && InInt32(n)
    ensures ParseStatusResponse(Some(k.keyMaxBeaconSize + "=" + IntToDecimal(n)), responseCode, headers, k)
         == Success(Defaults(responseCode, headers).(maxBeaconSize := Wrap32(n * 1024)))
  {
    KeysDistinct(k);
    IntegerPairBody(k.keyMaxBeaconSize, n, responseCode, headers, k);
    DecimalRoundTrip(n);
  }

  /** The server id is taken as sent, including 0 and negative values. */
  lemma ServerIdVerbatim(n: int, responseCode: Int32, headers: map<string, seq<string>>, k: ProtocolConstants)
    requires k.Valid() && InInt32(n)
    ensures ParseStatusResponse(Some(k.keyServerId + "=" + IntToDecimal(n)), responseCode, headers, k)
         == Success(Defaults(responseCode, headers).(serverID := n))
  {
    KeysDistinct(k);
    IntegerPairBody(k.keyServerId, n, responseCode, headers, k);
    DecimalRoundTrip(n);
  }

  /** The multiplicity is taken as sent, including 0 and negative values. */
  lemma MultiplicityVerbatim(n: int, responseCode: Int32, headers: map<string, seq<string>>, k: ProtocolConstants)
    requires k.Valid() && InInt32(n)
    ensures ParseStatusResponse(Some(k.keyMultiplicity + "=" + IntToDecimal(n)), responseCode, headers, k)
         == Success(Defaults(responseCode, headers).(multiplicity := n))
  {
    KeysDistinct(k);
    IntegerPairBody(k.keyMultiplicity, n, responseCode, headers, k);
    DecimalRoundTrip(n);
  }

  /** Error capture is off only for the value 0. */
  lemma CaptureErrorsUnlessZero(n: int, responseCode: Int32, headers: map<string, seq<string>>, k: ProtocolConstants)
    requires k.Valid() && InInt32(n)
    ensures ParseStatusResponse(Some(k.keyCaptureErrors + "=" + IntToDecimal(n)), responseCode, headers, k)
         == Success(Defaults(responseCode, headers).(captureErrors := n != 0))
  {
    KeysDistinct(k);
    IntegerPairBody(k.keyCaptureErrors, n, responseCode, headers, k);
    DecimalRoundTrip(n);
  }

  /** Crash capture is off only for the value 0. */
  lemma CaptureCrashesUnlessZero(n: int, responseCode: Int32, headers: map<string, seq<string>>, k: ProtocolConstants)
    requires k.Valid() && InInt32(n)
    ensures ParseStatusResponse(Some(k.keyCaptureCrashes + "=" + IntToDecimal(n)), responseCode, headers, k)
         == Success(Defaults(responseCode, headers).(captureCrashes := n != 0))
  {
    KeysDistinct(k);
    IntegerPairBody(k.keyCaptureCrashes, n, responseCode, headers, k);
    DecimalRoundTrip(n);
  }

  /** The monitor name is kept as text, so an empty value is the empty string and "1234" stays a string. */
  lemma MonitorNameVerbatim(value: string, responseCode: Int32, headers: map<string, seq<string>>, k: ProtocolConstants)
    requires k.Valid() && '&' !in value && '=' !in value
    ensures ParseStatusResponse(Some(k.keyMonitorName + "=" + value), responseCode, headers, k)
         == Success(Defaults(responseCode, headers).(monitorName := Some(value)))
  {
    KeysDistinct(k);
    var i := k.BodyKeys();
    assert i[2] == k.keyMonitorName;
    SinglePairBody(k.keyMonitorName, value, responseCode, headers, k);
  }

  /**
   * For every integer key an empty, non-numeric or out-of-range value throws
   * NumberFormat (not IllegalArgument); the wrap-around applies only to the
   * unit conversion, never to the literal.
   */
  lemma IntegerKeyRejectsNonNumbers(key: string, value: string, responseCode: Int32,
                                    headers: map<string, seq<string>>, k: ProtocolConstants)
    requires k.Valid() && k.IsIntegerKey(key) && '&' !in value && '=' !in value && ParseInt32(value).None?
    ensures ParseStatusResponse(Some(key + "=" + value), responseCode, headers, k) == Failure(NumberFormat(value))
  {
    KeysDistinct(k);
    var i := k.BodyKeys();
    assert '&' !in key && '=' !in key by {
      assert key in i;
    }
    SinglePairBody(key, value, responseCode, headers, k);
  }

  /** The literal 2^31 is out of range for every integer key, so it throws. */
  lemma TwoToThe31Rejected(key: string, responseCode: Int32, headers: map<string, seq<string>>, k: ProtocolConstants)
    requires k.Valid() && k.IsIntegerKey(key)
    ensures ParseStatusResponse(Some(key + "=" + IntToDecimal(0x8000_0000)), responseCode, headers, k)
         == Failure(NumberFormat(IntToDecimal(0x8000_0000)))
  {
    IntegerPairBody(key, 0x8000_0000, responseCode, headers, k);
  }

  /** The wrap-around values of the unit conversions near the `int` boundary. */
  lemma ConversionWrapExamples()
    ensures Wrap32(2147484 * 1000) == -2147483296
    ensures Wrap32(-2147485 * 1000) == 2147482296
    ensures Wrap32(2097152 * 1024) == -2147483648
    ensures Wrap32(-2097153 * 1024) == 2147482624
  {
  }

  /** A body with no `=` at all (such as "key_value" or "cp&100") is rejected as a whole. */
  lemma BodyWithoutEqualsRejected(body: string, responseCode: Int32, headers: map<string, seq<string>>, k: ProtocolConstants)
    requires body != "" && '=' !in body
    ensures ParseStatusResponse(Some(body), responseCode, headers, k) == Failure(IllegalArgument(EvenTokensMessage))
  {
    var first := SplitOn(body, '&')[0];
    assert first == PrefixBefore(body, '&');
    assert '=' !in first;
  }

  lemma {:induction false} JoinAppend(parts: seq<string>, last: string, sep: char)
    requires |parts| > 0
    ensures Join(parts + [last], sep) == Join(parts, sep) + [sep] + last
    decreases |parts|
  {
    if |parts| > 1 {
      JoinAppend(parts[1..], last, sep);
      assert (parts + [last])[1..] == parts[1..] + [last];
    } else {
      assert (parts + [last])[1..] == [last];
    }
  }

  /** Well-formed pairs followed by a bare key (as in "cp=100&cr") are rejected as a whole. */
  lemma TrailingBareKeyRejected(pairs: seq<KeyValuePair>, key: string, responseCode: Int32,
                                headers: map<string, seq<string>>, k: ProtocolConstants)
    requires |pairs| > 0 && AllWritable(pairs) && '&' !in key && '=' !in key
    ensures ParseStatusResponse(Some(Render(pairs) + "&" + key), responseCode, headers, k)
         == Failure(IllegalArgument(EvenTokensMessage))
  {
    var segments := Segments(pairs) + [key];
    JoinAppend(Segments(pairs), key, '&');
    assert Join(segments, '&') == Render(pairs) + "&" + key;
    assert SeparatorFree(segments, '&') by {
      forall i | 0 <= i < |segments|
        ensures '&' !in segments[i]
      {
        if i < |pairs| {
          assert segments[i] == Segment(pairs[i]);
        }
      }
    }
    SplitOnJoin(segments, '&');
    assert segments[|segments| - 1] == key;
  }

  /**
   * A pair whose value holds a further `=` (as in "bn=a=b") splits into more
   * than two tokens, so the body is rejected with IllegalArgument.
   */
  lemma ExtraEqualsRejected(key: string, value: string, responseCode: Int32,
                            headers: map<string, seq<string>>, k: ProtocolConstants)
    requires '&' !in key && '&' !in value && '=' in value
    ensures ParseStatusResponse(Some(key + "=" + value), responseCode, headers, k)
         == Failure(IllegalArgument(EvenTokensMessage))
  {
    var segment := key + "=" + value;
    assert '&' !in segment;
    SplitOnWithoutSeparator(segment, '&');
    OccurrencesAppend(key + "=", value, '=');
    OccurrencesAppend(key, "=", '=');
    assert SplitOn(segment, '&')[0] == segment;
  }

  lemma EvenIsNotSentinel(x: int)
    requires x % 2 == 0
    ensures Wrap32(x) != -1
  {
    Wrap32KeepsParity(x);
  }

  lemma ScaledIsEven(n: int, half: int)
    ensures (n * (2 * half)) % 2 == 0
  {
    var m := n * half;
    assert n * (2 * half) == 2 * m;
    EvenShiftKeepsParity(0, m);
  }

  /** A parsed send interval or beacon size is never -1, because the conversion makes it even. */
  lemma ConvertedValueIsNotSentinel(n: int)
    ensures Wrap32(n * 1000) != -1 && Wrap32(n * 1024) != -1
  {
    ScaledIsEven(n, 500);
    ScaledIsEven(n, 512);
    EvenIsNotSentinel(n * 1000);
    EvenIsNotSentinel(n * 1024);
  }

  lemma KeyPresentCons(pairs: seq<KeyValuePair>, key: string)
    requires |pairs| > 0
    ensures KeyPresent(pairs, key) <==> pairs[0].key == key || KeyPresent(pairs[1..], key)
  {
    if KeyPresent(pairs[1..], key) {
      var j :| 0 <= j < |pairs[1..]| && pairs[1..][j].key == key;
      assert pairs[j + 1].key == key;
    }
    if KeyPresent(pairs, key) && pairs[0].key != key {
      var j :| 0 <= j < |pairs| && pairs[j].key == key;
      assert pairs[1..][j - 1].key == key;
    }
  }

  /** One decoded pair touches the "unspecified" markers only through its own key. */
  lemma DecodePairSentinels(r: StatusResponse, p: KeyValuePair, k: ProtocolConstants)
    requires k.Valid() && DecodePair(r, p, k).Success?
    ensures DecodePair(r, p, k).value.sendInterval == -1
        <==> r.sendInterval == -1 && p.key != k.keySendInterval
    ensures DecodePair(r, p, k).value.maxBeaconSize == -1
        <==> r.maxBeaconSize == -1 && p.key != k.keyMaxBeaconSize
    ensures DecodePair(r, p, k).value.monitorName.None?
        <==> r.monitorName.None? && p.key != k.keyMonitorName
  {
    KeysDistinct(k);
    if p.key == k.keySendInterval || p.key == k.keyMaxBeaconSize {
      ConvertedValueIsNotSentinel(ParseInt32(p.value).value);
    }
  }

  /**
   * Decoding a list of pairs leaves send interval, beacon size and monitor
   * name at their "unspecified" value exactly when their key does not occur
   * and they started unspecified.
   */
  lemma {:induction false} DecodedSentinels(r: StatusResponse, pairs: seq<KeyValuePair>, k: ProtocolConstants)
    requires k.Valid() && DecodePairs(r, pairs, k).Success?
    ensures DecodePairs(r, pairs, k).value.sendInterval == -1
        <==> r.sendInterval == -1 && !KeyPresent(pairs, k.keySendInterval)
    ensures DecodePairs(r, pairs, k).value.maxBeaconSize == -1
        <==> r.maxBeaconSize == -1 && !KeyPresent(pairs, k.keyMaxBeaconSize)
    ensures DecodePairs(r, pairs, k).value.monitorName.None?
        <==> r.monitorName.None? && !KeyPresent(pairs, k.keyMonitorName)
    decreases |pairs|
  {
    if |pairs| > 0 {
      var next := DecodePair(r, pairs[0], k).value;
      assert DecodePairs(r, pairs, k) == DecodePairs(next, pairs[1..], k);
      DecodePairSentinels(r, pairs[0], k);
      DecodedSentinels(next, pairs[1..], k);
      KeyPresentCons(pairs, k.keySendInterval);
      KeyPresentCons(pairs, k.keyMaxBeaconSize);
      KeyPresentCons(pairs, k.keyMonitorName);
    }
  }

  /**
   * For a parsed body: send interval or beacon size is -1, and the monitor
   * name null, exactly when the body does not carry that key.
   */
  lemma ParsedSentinelsMeanAbsent(body: string, responseCode: Int32, headers: map<string, seq<string>>, k: ProtocolConstants)
    requires k.Valid() && ParseStatusResponse(Some(body), responseCode, headers, k).Success?
    ensures var r := ParseStatusResponse(Some(body), responseCode, headers, k).value;
      var pairs := ParseResponseKeyValuePair(body).value;
      && (r.sendInterval == -1 <==> !KeyPresent(pairs, k.keySendInterval))
      && (r.maxBeaconSize == -1 <==> !KeyPresent(pairs, k.keyMaxBeaconSize))
      && (r.monitorName.None? <==> !KeyPresent(pairs, k.keyMonitorName))
  {
    var pairs := ParseResponseKeyValuePair(body).value;
    DecodedSentinels(Defaults(responseCode, headers), pairs, k);
  }

  function SamplePairs(): seq<KeyValuePair> {
    [KeyValuePair("type", "m"), KeyValuePair("si", "120"),
     KeyValuePair("bn", "dynaTraceMonitor"), KeyValuePair("id", "1")]
  }

  lemma SampleSegments()
    ensures Segments(SamplePairs()) == ["type=m", "si=120", "bn=dynaTraceMonitor", "id=1"]
  {
    var pairs := SamplePairs();
    var segments := Segments(pairs);
    assert segments[0] == "type" + "=" + "m" == "type=m";
    assert segments[1] == "si" + "=" + "120" == "si=120";
    assert segments[2] == "bn" + "=" + "dynaTraceMonitor" == "bn=dynaTraceMonitor";
    assert segments[3] == "id" + "=" + "1" == "id=1";
  }

  lemma JoinFour(a: string, b: string, c: string, d: string, sep: char)
    ensures Join([a, b, c, d], sep) == a + [sep] + b + [sep] + c + [sep] + d
  {
    var parts := [a, b, c, d];
    assert parts[1..] == [b, c, d];
    assert parts[1..][1..] == [c, d];
    assert parts[1..][1..][1..] == [d];
    assert Join([c, d], sep) == c + [sep] + d;
    assert Join([b, c, d], sep) == b + [sep] + (c + [sep] + d);
    assert Join(parts, sep) == a + [sep] + (b + [sep] + (c + [sep] + d));
  }

  lemma SampleJoin()
    ensures Join(["type=m", "si=120", "bn=dynaTraceMonitor", "id=1"], '&') == "type=m&si=120&bn=dynaTraceMonitor&id=1"
  {
    JoinFour("type=m", "si=120", "bn=dynaTraceMonitor", "id=1", '&');
    assert "type=m" + "&" + "si=120" == "type=m&si=120";
    assert "type=m&si=120" + "&" + "bn=dynaTraceMonitor" == "type=m&si=120&bn=dynaTraceMonitor";
    assert "type=m&si=120&bn=dynaTraceMonitor" + "&" + "id=1" == "type=m&si=120&bn=dynaTraceMonitor&id=1";
  }

  lemma SampleWritable()
    ensures AllWritable(SamplePairs())
  {
    var pairs := SamplePairs();
    assert WritablePair(pairs[0]) by { assert pairs[0] == KeyValuePair("type", "m"); }
    assert WritablePair(pairs[1]) by { assert pairs[1] == KeyValuePair("si", "120"); }
    assert WritablePair(pairs[2]) by {
      var v := "dynaTraceMonitor";
      assert pairs[2] == KeyValuePair("bn", v);
      assert forall i :: 0 <= i < |v| ==> v[i] != '&' && v[i] != '=';
    }
    assert WritablePair(pairs[3]) by { assert pairs[3] == KeyValuePair("id", "1"); }
  }

  lemma SampleBodyRenders()
    ensures AllWritable(SamplePairs())
    ensures Render(SamplePairs()) == "type=m&si=120&bn=dynaTraceMonitor&id=1"
  {
    SampleWritable();
    SampleSegments();
    SampleJoin();
  }

  /** The status body the local AppMon tests serve splits into its four pairs. */
  lemma SampleBodyPairs()
    ensures ParseResponseKeyValuePair("type=m&si=120&bn=dynaTraceMonitor&id=1") == Success(SamplePairs())
  {
    SampleBodyRenders();
    ParseRenderRoundTrip(SamplePairs());
  }

  lemma SampleNumbers()
    ensures ParseInt32("120") == Some(120) && ParseInt32("1") == Some(1)
  {
    assert AllDigits("120") && AllDigits("1");
    assert "120"[..2] == "12" && "12"[..1] == "1" && "1"[..0] == "";
    assert DigitsValue("1") == 1;
    assert DigitsValue("12") == 12;
    assert DigitsValue("120") == 120;
  }

  /** The sample's pairs one at a time, with the AppMon key names. */
  lemma SamplePairSteps(headers: map<string, seq<string>>, k: ProtocolConstants)
    requires k.Valid()
    requires k.keySendInterval == "si" && k.keyMonitorName == "bn" && k.keyServerId == "id"
    requires "type" !in k.BodyKeys()
    ensures var d0 := Defaults(200, headers);
      var d1 := d0.(sendInterval := 120000);
      var d2 := d1.(monitorName := Some("dynaTraceMonitor"));
      && DecodePair(d0, SamplePairs()[0], k) == Success(d0)
      && DecodePair(d0, SamplePairs()[1], k) == Success(d1)
      && DecodePair(d1, SamplePairs()[2], k) == Success(d2)
      && DecodePair(d2, SamplePairs()[3], k) == Success(d2.(serverID := 1))
  {
    KeysDistinct(k);
    SampleNumbers();
  }

  /** One step of the fold: a pair that decodes hands its result on to the rest. */
  lemma DecodePairsStep(r: StatusResponse, s: StatusResponse, pairs: seq<KeyValuePair>, k: ProtocolConstants)
    requires |pairs| > 0 && DecodePair(r, pairs[0], k) == Success(s)
    ensures DecodePairs(r, pairs, k) == DecodePairs(s, pairs[1..], k)
  {
  }

  /** The sample's pairs folded over the defaults, with the AppMon key names. */
  lemma SamplePairsDecode(headers: map<string, seq<string>>, k: ProtocolConstants)
    requires k.Valid()
    requires k.keySendInterval == "si" && k.keyMonitorName == "bn" && k.keyServerId == "id"
    requires "type" !in k.BodyKeys()
    ensures DecodePairs(Defaults(200, headers), SamplePairs(), k)
         == Success(Defaults(200, headers).(sendInterval := 120000, monitorName := Some("dynaTraceMonitor"), serverID := 1))
  {
    SamplePairSteps(headers, k);
    var pairs := SamplePairs();
    var d0 := Defaults(200, headers);
    var d1 := d0.(sendInterval := 120000);
    var d2 := d1.(monitorName := Some("dynaTraceMonitor"));
    var d3 := d2.(serverID := 1);
    DecodePairsStep(d0, d0, pairs, k);
    DecodePairsStep(d0, d1, pairs[1..], k);
    DecodePairsStep(d1, d2, pairs[2..], k);
    DecodePairsStep(d2, d3, pairs[3..], k);
    assert pairs[1..][1..] == pairs[2..] && pairs[2..][1..] == pairs[3..] && pairs[3..][1..] == [];
  }

  /**
   * With the AppMon key names for send interval, monitor name and server id
   * (and `type` not a key), the sample body sets exactly those three fields.
   */
  lemma SampleBodyDecodes(headers: map<string, seq<string>>, k: ProtocolConstants)
    requires k.Valid()
    requires k.keySendInterval == "si" && k.keyMonitorName == "bn" && k.keyServerId == "id"
    requires "type" !in k.BodyKeys()
    ensures ParseStatusResponse(Some("type=m&si=120&bn=dynaTraceMonitor&id=1"), 200, headers, k)
         == Success(Defaults(200, headers).(sendInterval := 120000, monitorName := Some("dynaTraceMonitor"), serverID := 1))
  {
    SampleBodyPairs();
    SamplePairsDecode(headers, k);
  }

  /** A missing header, several values or a value that is not an `int` give the default delay. */
  lemma RetryAfterFallsBackToDefault(r: StatusResponse, k: ProtocolConstants)
    requires k.keyRetryAfter !in r.headers || |r.headers[k.keyRetryAfter]| != 1
          || ParseInt32(r.headers[k.keyRetryAfter][0]).None?
    ensures RetryAfterInMilliseconds(r, k) == k.defaultRetryAfterInMilliseconds
  {
  }

  /** A single header value of `n` seconds gives `n * 1000` milliseconds, computed as a `long`. */
  lemma RetryAfterSeconds(r: StatusResponse, k: ProtocolConstants, n: Int32)
    requires k.keyRetryAfter in r.headers && |r.headers[k.keyRetryAfter]| == 1
    requires ParseInt32(r.headers[k.keyRetryAfter][0]) == Some(n)
    ensures RetryAfterInMilliseconds(r, k) == n * 1000
  {
  }

  /** In particular the decimal rendering of `n` seconds, such as "1234", gives `n * 1000`. */
  lemma RetryAfterDecimalSeconds(r: StatusResponse, k: ProtocolConstants, n: Int32)
    requires k.keyRetryAfter in r.headers && r.headers[k.keyRetryAfter] == [IntToDecimal(n)]
    ensures RetryAfterInMilliseconds(r, k) == n * 1000
  {
    DecimalRoundTrip(n);
    RetryAfterSeconds(r, k, n);
  }
}

=== FILE: strings.dfy ===
/**
 * Splitting a string at every occurrence of one separator character, the
 * inverse joining, and the variant `String.split` implements in Java (which
 * drops trailing empty pieces).
 */
module Strings {

  /** The pieces joined back together with `sep` between consecutive ones. */
  function Join(parts: seq<string>, sep: char): string
    decreases |parts|
  {
    if |parts| == 0 then ""
    else if |parts| == 1 then parts[0]
    else parts[0] + [sep] + Join(parts[1..], sep)
  }

  predicate SeparatorFree(parts: seq<string>, sep: char) {
    forall i :: 0 <= i < |parts| ==> sep !in parts[i]
  }

  /**
   * Every piece between two occurrences of `sep` (and before the first and
   * after the last), empty pieces included.
   */
  function SplitOn(s: string, sep: char): (parts: seq<string>)
    ensures |parts| >= 1
    ensures SeparatorFree(parts, sep)
    ensures Join(parts, sep) == s
    decreases |s|
  {
    if |s| == 0 then [""]
    else if s[0] == sep then
      var rest := SplitOn(s[1..], sep);
      assert s == [sep] + s[1..];
      [""] + rest
    else
      var rest := SplitOn(s[1..], sep);
      JoinExtendFirst(s[0], rest, sep);
      assert s == [s[0]] + s[1..];
      [[s[0]] + rest[0]] + rest[1..]
  }

  lemma JoinExtendFirst(c: char, parts: seq<string>, sep: char)
    requires |parts| >= 1
    ensures Join([[c] + parts[0]] + parts[1..], sep) == [c] + Join(parts, sep)
  {
    var q := [[c] + parts[0]] + parts[1..];
    assert q[1..] == parts[1..];
  }

  /** A string with no separator in it is a single piece. */
  lemma {:induction false} SplitOnWithoutSeparator(s: string, sep: char)
    requires sep !in s
    ensures SplitOn(s, sep) == [s]
    decreases |s|
  {
    if |s| > 0 {
      SplitOnWithoutSeparator(s[1..], sep);
      assert s == [s[0]] + s[1..];
    }
  }

  /** Splitting is the inverse of joining separator-free pieces. */
  lemma {:induction false} SplitOnJoin(parts: seq<string>, sep: char)
    requires |parts| >= 1 && SeparatorFree(parts, sep)
    ensures SplitOn(Join(parts, sep), sep) == parts
    decreases |parts|
  {
    if |parts| == 1 {
      SplitOnWithoutSeparator(parts[0], sep);
    } else {
      SplitOnJoin(parts[1..], sep);
      SplitOnPrefix(parts[0], Join(parts[1..], sep), sep);
      assert parts == [parts[0]] + parts[1..];
    }
  }

  lemma {:induction false} SplitOnPrefix(u: string, v: string, sep: char)
    requires sep !in u
    ensures SplitOn(u + [sep] + v, sep) == [u] + SplitOn(v, sep)
    decreases |u|
  {
    var s := u + [sep] + v;
    if |u| == 0 {
      assert s[1..] == v;
    } else {
      assert s[1..] == u[1..] + [sep] + v;
      SplitOnPrefix(u[1..], v, sep);
      assert [u[0]] + u[1..] == u;
    }
  }

  /** Every character of every piece occurs in the joined string. */
  lemma {:induction false} PieceCharInJoin(parts: seq<string>, sep: char, i: nat, j: nat)
    requires i < |parts| && j < |parts[i]|
    ensures parts[i][j] in Join(parts, sep)
    decreases |parts|
  {
    if |parts| > 1 {
      if i == 0 {
        assert Join(parts, sep)[j] == parts[0][j];
      } else {
        PieceCharInJoin(parts[1..], sep, i - 1, j);
        var tail := Join(parts[1..], sep);
        var k :| 0 <= k < |tail| && tail[k] == parts[i][j];
        assert Join(parts, sep)[|parts[0]| + 1 + k] == tail[k];
      }
    }
  }

  /** A character of the joined string that is not the separator lies in a non-empty piece. */
  lemma {:induction false} NonSeparatorInPiece(parts: seq<string>, sep: char, k: nat)
    requires k < |Join(parts, sep)| && Join(parts, sep)[k] != sep
    ensures exists i :: 0 <= i < |parts| && parts[i] != ""
    decreases |parts|
  {
    if |parts| > 1 && k >= |parts[0]| {
      if parts[0] == "" {
        NonSeparatorInPiece(parts[1..], sep, k - 1);
        var i :| 0 <= i < |parts[1..]| && parts[1..][i] != "";
        assert parts[i + 1] != "";
      } else {
        assert parts[0] != "";
      }
    } else {
      assert parts[0] != "";
    }
  }

  /** The part of `s` before its first `sep`, or all of `s` when it has none. */
  function PrefixBefore(s: string, sep: char): (r: string)
    ensures sep !in r
    ensures |r| <= |s| && r == s[..|r|]
    ensures |r| == |s| || s[|r|] == sep
  {
    var parts := SplitOn(s, sep);
    var rest := Join(parts[1..], sep);
    assert |parts| > 1 ==> s == parts[0] + [sep] + rest;
    parts[0]
  }

  /** The three properties of PrefixBefore determine it: a separator-free head followed by the separator. */
  lemma PrefixBeforeHead(u: string, v: string, sep: char)
    requires sep !in u
    ensures PrefixBefore(u + [sep] + v, sep) == u
  {
    var s := u + [sep] + v;
    var r := PrefixBefore(s, sep);
    assert forall i :: 0 <= i < |u| ==> s[i] == u[i] && s[i] != sep;
    assert s[|u|] == sep;
    assert |r| <= |u| by {
      if |r| > |u| {
        assert false;
      }
    }
    assert s[..|u|] == u;
  }

  lemma PrefixBeforeWithoutSeparator(s: string, sep: char)
    requires sep !in s
    ensures PrefixBefore(s, sep) == s
  {
    SplitOnWithoutSeparator(s, sep);
  }

  /** How many times `c` occurs in `s`. */
  function Occurrences(s: string, c: char): (n: nat)
    ensures n == 0 <==> c !in s
    ensures n <= |s|
    decreases |s|
  {
    if |s| == 0 then 0
    else
      assert c in s <==> s[0] == c || c in s[1..];
      (if s[0] == c then 1 else 0) + Occurrences(s[1..], c)
  }

  lemma {:induction false} OccurrencesAppend(a: string, b: string, c: char)
    ensures Occurrences(a + b, c) == Occurrences(a, c) + Occurrences(b, c)
    decreases |a|
  {
    if |a| > 0 {
      assert (a + b)[1..] == a[1..] + b;
      OccurrencesAppend(a[1..], b, c);
    } else {
      assert a + b == b;
    }
  }

  /** Splitting gives one piece more than there are separators. */
  lemma {:induction false} SplitOnCount(s: string, sep: char)
    ensures |SplitOn(s, sep)| == Occurrences(s, sep) + 1
    decreases |s|
  {
    if |s| > 0 {
      SplitOnCount(s[1..], sep);
    }
  }

  // ---------------------------------------------------------------------
  // java.lang.String.split(regex) for a one-character regex, limit 0
  // ---------------------------------------------------------------------

  /** Java's split with limit 0 removes the empty pieces at the end. */
  function DropTrailingEmpty(parts: seq<string>): (r: seq<string>)
    ensures |r| <= |parts| && r == parts[..|r|]
    ensures |r| == 0 || r[|r| - 1] != ""
    ensures forall i :: |r| <= i < |parts| ==> parts[i] == ""
    decreases |parts|
  {
    if |parts| == 0 then []
    else if parts[|parts| - 1] == "" then DropTrailingEmpty(parts[..|parts| - 1])
    else parts
  }

  /**
   * `s.split(sep)`: when `sep` does not occur the answer is `[s]` (even for
   * the empty string); otherwise every piece, without the trailing empty ones.
   */
  function JavaSplit(s: string, sep: char): (parts: seq<string>)
    ensures SeparatorFree(parts, sep)
    ensures sep !in s ==> parts == [s]
    ensures sep in s ==> |parts| <= |SplitOn(s, sep)| && parts == SplitOn(s, sep)[..|parts|]
    ensures sep in s ==> |parts| == 0 || parts[|parts| - 1] != ""
    ensures sep in s ==> forall i :: |parts| <= i < |SplitOn(s, sep)| ==> SplitOn(s, sep)[i] == ""
  {
    if sep !in s then [s]
    else
      var pieces := SplitOn(s, sep);
      var kept := DropTrailingEmpty(pieces);
      assert forall i :: 0 <= i < |kept| ==> kept[i] == pieces[i];
      kept
  }
}

=== FILE: web_request_tags.dfy ===
/**
 * The constructor of `WebRequestTagStringURL`, which keeps only the part of
 * a URL before its query string: `url.split("\\?")[0]`.
 */
module WebRequestTags {
  import opened Wrappers
  import opened Strings

  /** The exception `[0]` raises on an empty array. */
  datatype IndexError = ArrayIndexOutOfBounds

  predicate OnlyQuestionMarks(url: string) {
    forall i :: 0 <= i < |url| ==> url[i] == '?'
  }

  /** `url.split("\\?")[0]` exactly as written, including its exception. */
  function StripQueryAsWritten(url: string): (r: Result<string, IndexError>)
    ensures r.Success? ==> '?' !in r.value
    ensures '?' !in url ==> r == Success(url)
  {
    var parts := JavaSplit(url, '?');
    if |parts| == 0 then Failure(ArrayIndexOutOfBounds) else Success(parts[0])
  }

  /** A URL without `?` is kept unchanged; this includes the empty URL. */
  lemma AsWrittenKeepsUrlWithoutQuery(url: string)
    requires '?' !in url
    ensures StripQueryAsWritten(url) == Success(url)
  {
  }

  /**
   * A URL with a `?` and some other character yields the prefix before its
   * first `?`.
   */
  lemma AsWrittenStripsQuery(url: string)
    requires !OnlyQuestionMarks(url)
    ensures StripQueryAsWritten(url) == Success(StripQuery(url))
  {
    if '?' in url {
      var parts := SplitOn(url, '?');
      var k :| 0 <= k < |url| && url[k] != '?';
      NonSeparatorInPiece(parts, '?', k);
      var i :| 0 <= i < |parts| && parts[i] != "";
      var kept := DropTrailingEmpty(parts);
      assert |kept| > i;
      assert kept[0] == parts[0];
    } else {
      SplitOnWithoutSeparator(url, '?');
    }
  }

  /**
   * A non-empty URL made only of `?` splits into nothing but empty pieces,
   * all of which `split` drops, so `[0]` throws.
   */
  lemma AsWrittenThrowsOnOnlyQuestionMarks(url: string)
    requires url != "" && OnlyQuestionMarks(url)
    ensures StripQueryAsWritten(url) == Failure(ArrayIndexOutOfBounds)
  {
    assert url[0] == '?';
    var parts := SplitOn(url, '?');
    forall i | 0 <= i < |parts|
      ensures parts[i] == ""
    {
      if parts[i] != "" {
        PieceCharInJoin(parts, '?', i, 0);
        assert false;
      }
    }
    assert |DropTrailingEmpty(parts)| == 0;
  }

  /** The shortest input that shows the exception. */
  lemma SingleQuestionMarkThrows()
    ensures StripQueryAsWritten("?") == Failure(ArrayIndexOutOfBounds)
  {
    AsWrittenThrowsOnOnlyQuestionMarks("?");
  }

  /** The prefix of `url` before its first `?` (all of `url` when it has none). */
  function StripQuery(url: string): (r: string)
    ensures '?' !in r
    ensures |r| <= |url| && r == url[..|r|]
    ensures |r| == |url| || url[|r|] == '?'
  {
    PrefixBefore(url, '?')
  }

  /** Stripping again changes nothing. */
  lemma StripQueryIdempotent(url: string)
    ensures StripQuery(StripQuery(url)) == StripQuery(url)
  {
    PrefixBeforeWithoutSeparator(StripQuery(url), '?');
  }

  /** The corrected version never throws, and agrees with the source wherever the source does not throw. */
  lemma StripQueryCorrectsAsWritten(url: string)
    ensures StripQueryAsWritten(url).Success? ==> StripQueryAsWritten(url).value == StripQuery(url)
    ensures StripQueryAsWritten(url).Failure? <==> url != "" && OnlyQuestionMarks(url)
  {
    if url != "" && OnlyQuestionMarks(url) {
      AsWrittenThrowsOnOnlyQuestionMarks(url);
    } else if url == "" {
      AsWrittenKeepsUrlWithoutQuery(url);
      SplitOnWithoutSeparator(url, '?');
    } else {
      AsWrittenStripsQuery(url);
    }
  }

  /**
   * The `url` field after the constructor as written: left as the base
   * class set it (`inherited`) when the argument is null, the argument
   * without its query string otherwise, and an exception for a non-empty
   * URL made only of `?`.
   */
  function ConstructedUrlAsWritten(inherited: string, url: Option<string>): (r: Result<string, IndexError>)
    ensures r.Failure? <==> url.Some? && url.value != "" && OnlyQuestionMarks(url.value)
    ensures r.Success? ==> r.value == ConstructedUrl(inherited, url)
  {
    match url
    case None => Success(inherited)
    case Some(u) =>
      StripQueryCorrectsAsWritten(u);
      StripQueryAsWritten(u)
  }

  /**
   * The corrected constructor: as `ConstructedUrlAsWritten`, but an all-`?`
   * URL is stored as its (empty) part before the first `?` instead of
   * throwing.
   */
  function ConstructedUrl(inherited: string, url: Option<string>): (r: string)
    ensures url.None? ==> r == inherited
    ensures url.Some? ==> '?' !in r && |r| <= |url.value| && r == url.value[..|r|]
    ensures url.Some? ==> |r| == |url.value| || url.value[|r|] == '?'
  {
    match url
    case None => inherited
    case Some(u) => StripQuery(u)
  }
}

=== FILE: wrappers.dfy ===
/** Option and Result, the two wrappers the model uses for Java's null and exceptions. */
module Wrappers {

  /** `None` stands for a Java `null` reference. */
  datatype Option<+T> = None | Some(value: T) {
    function GetOr(default: T): T {
      match this
      case Some(v) => v
      case None => default
    }
  }

  /** `Failure` stands for an exception thrown by the modelled Java code. */
  datatype Result<+R, +E> = Success(value: R) | Failure(error: E) {
    predicate IsFailure() {
      Failure?
    }

    function PropagateFailure<U>(): Result<U, E>
      requires Failure?
    {
      Failure(error)
    }

    function Extract(): R
      requires Success?
    {
      value
    }
  }
}
